=== FILE: README.md ===
# Learning progress tracker: a verified model of the core

The tracker is an interactive console program. It registers students, records
points for four courses (Java, DSA, Databases, Spring), and reports statistics
and per-course details. It also sends a completion notice once per student and
course. This project models the program's in-memory core in Dafny as
immutable data and pure functions, and proves what the program promises about
that core.

Modules, in dependency order:

- `Results`: `Option` and `Result`.
- `Courses`: the four courses and their completion thresholds (600, 400, 480,
  550). Also the case-insensitive lookup of a typed course name.
- `Students`: the student record, with points and submissions per course and
  the set of notified courses. It covers points lines, completion, marking
  notified, and the full name.
- `Credentials`: Java's `trim`, the `split(" ")` arity check, and the
  `indexOf`/`lastIndexOf` cut of a credentials line into first name, last name
  and email.
- `Rosters`: the roster of students by id in insertion order, with the id
  counter starting at 10000 and the set of taken emails. It also holds the
  commands that change or read the roster: add students, list, add points,
  find.
- `Statistics`: the `CourseInfo` counters, the average score, and
  `calculateStats` as a loop over students and courses. That loop is proved
  equal to a reference sum and independent of student order.
- `Ranking`: `printCategory`, the "most/least" policy with its tie and zero
  rules, and the six lines of the statistics screen.
- `CourseDetails`: the course detail table. It keeps students with positive
  points, orders them by points descending and then by id, and shows the
  percentage of the threshold rounded half up to one decimal.
- `Notifications`: the notification scan. It yields notices and marks them
  sent, and counts the students who received a notice.

The roster invariant `Rosters.Valid` ties the parts together:
- ids are consecutive from 10000 in insertion order;
- every stored record keeps the record invariant `Students.Valid`, which says
  a course has submissions exactly when it has points;
- the email set is exactly the set of stored emails, with no email stored
  twice.

Every command that changes the roster is proved to keep the invariant.

Three behaviours of the code shape the model:

- The points command rejects a negative value itself, with "Incorrect points
  format" (Main.java:131-134). `Rosters.RecordPoints` models that check.
- The ranking lines list course names in the iteration order of a `HashMap`
  (Main.java:236, Main.java:271-274), which is unspecified. The model returns
  the named courses as a set.
- A submission is counted only for a positive value (Student.java:37).
  `Students.AddPoints` treats every value that is not positive as a no-op.

## Model

| member | source | states |
|---|---|---|
| Courses.FormatCourseName | Main.java:298-311 | Returns a course exactly when the typed name equals that course's display name with case ignored. Any other input gives `None`, which stands for the source's empty name. |
| Courses.FormatCourseNameRoundTrip | Main.java:298-311 | Every course's display name is looked up as that course. |
| Courses.LowerName | Main.java:299-307 | The lower-cased display names are exactly the four `switch` labels. |
| Students.NewStudent | Student.java:18-27 | A new record has zero points and zero submissions in every course and nothing notified, and it satisfies the record invariant. |
| Students.AddPoints | Student.java:36-41 | A positive value adds itself to one course's points and adds exactly one submission. A value that is not positive changes nothing. Other courses, identity and the notified set are untouched, and the invariant is kept. |
| Students.UpdatePoints | Student.java:29-34 | Each of the four values goes only to its own course: points grow by the positive part of the value, and submissions grow by one exactly when the value is positive. The invariant is kept. |
| Students.HistoryTotals | Student.java:29-41 | After any sequence of points lines, a course's points are the start value plus the sum of the positive values submitted. Its submissions are the start value plus the number of lines with a positive value. The invariant, id and notified set survive. |
| Students.PointsMonotone | Student.java:36-41 | Points never decrease under a points line. |
| Students.HasCompleted | Student.java:52-54 | On a valid record, a non-positive threshold is always reached, and reaching a positive threshold implies at least one submission in the course. |
| Students.Student.Points | Student.java:45 | The value returned is the one whose storing back into the points tally, for that course, leaves the tally unchanged: the course's own entry and no other (see `Students.TallyGetSet`). |
| Students.Student.Submissions | Student.java:46 | The value returned is the one whose storing back into the submissions tally, for that course, leaves the tally unchanged: the course's own entry and no other. |
| Students.TallyGetSet | Student.java:45-46 | Reading a course back after storing a value in it gives that value. Storing the value already there changes nothing, and storing then restoring the old value gives the original tally. |
| Students.IsNotifiedFor | Student.java:56-58 | Holds exactly when adding the course to the notified set would leave the set unchanged, so marking it again is a no-op. Its partner is `Students.MarkNotifiedIdempotent`: marking changes the record exactly when this test is false. |
| Students.MarkNotifiedIdempotent | Student.java:56-62 | Marking a course changes the record exactly when the course was not yet notified. |
| Students.CompletionStable | Student.java:52-54 | Once a course's points reach the threshold, they stay at or above it after any further points line. |
| Students.MarkNotified | Student.java:60-62 | The course becomes notified. Previously notified courses stay notified, and no other course is added. Points, submissions and identity are unchanged. |
| Students.FullName | Student.java:64-66 | The full name is the first name, one space, then the last name. |
| Students.FullNameFirstSpace | Student.java:64-66 | When the first name has no space, cutting the full name at its first space gives the first and last names back. |
| Credentials.Trim | Main.java:66 | The trimmed line has no character at or below U+0020 at either end. It is the infix left after dropping only such characters from both ends. |
| Credentials.IndexOf | Main.java:77 | Gives the first position of the character, or -1 exactly when the character is absent. |
| Credentials.LastIndexOf | Main.java:78 | Gives the last position of the character, or -1 exactly when the character is absent. |
| Credentials.JavaSplit | Main.java:71 | A line without a space comes back whole. Otherwise no piece contains a space, the last piece is not empty, and there are at most one more pieces than spaces. On a trimmed line, joining the pieces with single spaces gives the line back. |
| Credentials.SplitOnSpace | Main.java:117 | At least one piece, none containing a space, and joining the pieces with single spaces gives the input back. |
| Credentials.DropTrailingEmpty | Main.java:117 | Keeps a prefix of the pieces whose last piece is non-empty, and drops only empty pieces. |
| Credentials.SplitArity | Main.java:71-72 | On a trimmed line, `split(" ")` yields one more piece than the line has spaces. |
| Credentials.ParseCredentials | Main.java:71-81 | The line is rejected exactly when its trimmed form has fewer than two spaces. Otherwise first name, space, last name, space, email rebuild the trimmed line, and neither the first name nor the email contains a space. |
| Credentials.ParseCredentialsRoundTrip | Main.java:77-81 | Joining a space-free first name, any last name and a space-free email with single spaces, then parsing, gives the three parts back. |
| Rosters.EmptyRoster | Main.java:12-13 | The starting roster is empty, satisfies the roster invariant, and its next id is 10000. |
| Rosters.AddStudent | Main.java:89-97 | A taken email leaves the roster unchanged and reports the clash. Otherwise the id map gains exactly one entry: a fresh record under the next id. The id is appended to the order and the email is reserved, existing records are untouched, and both the roster and the email set grow by one. |
| Rosters.AddKeepsValid | Student.java:19 | Handing out the counter's id to a new record with an unused email keeps ids consecutive and emails unique and mirrored. |
| Rosters.AddLine | Main.java:71-97 | A student is added exactly when the line splits, the three checks pass, and the email is free. Each rejection is pinned in both directions: the split failure exactly when parsing fails; the first-name reply exactly when the line parses and the first name fails its check; the last-name reply exactly when the first name passes and the last name fails; the email reply exactly when both names pass and the email fails; the taken-email reply exactly when all three pass and the email is already taken. On success the id map gains exactly a fresh record with the parsed names and email under the next id. Every other reply leaves the roster as it was. |
| Rosters.AddStudents | Main.java:62-99 | The taken emails afterwards are the earlier ones plus the emails of the lines that parse and pass the three checks. The reported count is exactly how much the email set grew and how much the id order grew, and at most the number of lines. Earlier ids are kept, and so is the invariant. On a valid roster every earlier record is kept unchanged, and every record added is the fresh record, with the parsed first name, last name and email, of some line that parses and passes the three checks. |
| Rosters.ListStudents | Main.java:101-110 | "No students found" is the answer exactly when the roster is empty. Otherwise the ids come in insertion order, strictly ascending, and they are exactly the stored ids. |
| Rosters.OrderCoversKeys | Main.java:12 | In a valid roster the insertion order lists exactly the stored ids. |
| Rosters.ListAfterAdd | Main.java:92-93 | A successful add appends exactly the new id to the listing. |
| Rosters.ParsePointValues | Main.java:124-138 | The four values are accepted exactly when each one parses and is non-negative. The accepted entry carries each course's value from its own column. |
| Rosters.UpdateStudent | Main.java:142-147 | Only the addressed student changes, and it changes as a points line says. The order, emails, counter and invariant are kept. |
| Rosters.RecordPoints | Main.java:112-153 | The points format is wrong exactly when there are not five pieces or a value is malformed or negative. Points are updated exactly when, in addition, the id parses and is stored, and then only that student is updated. Every other reply leaves the roster unchanged. |
| Rosters.FindStudent | Main.java:155-172 | A student is found exactly when the trimmed input parses to a stored id. The progress then shows that student's id and points in every course. |
| Statistics.NewCourseInfo | CourseInfo.java:3-11 | A new record keeps its course and starts every counter at zero. |
| Statistics.AverageScore | CourseInfo.java:15-17 | The average is zero when nothing was submitted. Otherwise, multiplied by the submissions, it gives the total score. |
| Statistics.AverageOrder | CourseInfo.java:15-17 | Comparing or equating two averages is the same as comparing or equating the cross products of totals and submissions. |
| Statistics.InitialStats | Main.java:280-283 | There is one record per course, each zero. |
| Statistics.TotalsSnoc | Main.java:286-292 | Adding one more student's mark, submissions and points to a course's record gives the record of all students so far. |
| Statistics.FoldStudent | Main.java:286-292 | After the inner loop over the courses, every course's record accounts for one more student. |
| Statistics.CalculateStats | Main.java:279-296 | There is a record for each of the four courses. Each record's enrolled count, submissions and total score are the sums over all students of "points > 0", submissions and points. |
| Statistics.SumPermutation | Main.java:285-293 | The fold is commutative: students taken in any order give the same sums. |
| Statistics.StatsOrderIndependent | Main.java:279-296 | Any permutation of the students gives identical statistics. |
| Statistics.EnrolledStudents | Main.java:218-219 | A student is kept exactly when they are in the list and have positive points in the course, and is kept as many times as they occur in the list. |
| Statistics.EnrolledCountIsFilterSize | Main.java:289 | The enrolled count equals the number of students with positive points in the course. |
| Statistics.StatsBounds | Main.java:287-291 | Over valid records, enrolled ≤ submissions ≤ total score, and nobody is enrolled exactly when the total score is zero. |
| Ranking.Value | Main.java:195-200 | The metric read off a course record is never negative: the enrolled count for popularity, the submissions for activity, and the average score for difficulty. |
| Ranking.Best | Main.java:242-246 | The first value after sorting in the direction is attained by some course, and no course beats it. |
| Ranking.PrintCategory | Main.java:234-277 | The answer is "n/a" exactly in these cases: no records; the best value is zero; or all courses tie and the direction is "least". Otherwise it is the non-empty set of courses whose value equals the best. |
| Ranking.ExtremaMeetIffAllEqual | Main.java:246-250 | The best and the worst values coincide exactly when every course has the same value. |
| Ranking.TieAsymmetry | Main.java:250-262 | When all courses tie on a non-zero value, "most" names every course and "least" answers "n/a". |
| Ranking.AllZeroNotAvailable | Main.java:250-252 | When every value is zero, both directions answer "n/a". |
| Ranking.MostAndLeastDisjoint | Main.java:234-277 | With one record per course, no course is named both "most" and "least" for a metric. |
| Ranking.OrderIndependent | Main.java:236 | The answer depends only on which records are present, not on the order the map yields them. |
| Ranking.StatsList | Main.java:236 | The list holds exactly the map's records. |
| Ranking.ShowStatistics | Main.java:191-200 | The six lines are the ranking lines over every enumeration of the map's records, whatever order it comes in. |
| Ranking.SummarizeOrderIndependent | Main.java:195-200 | Two lists holding the same records give the same six lines. |
| Ranking.ScreenLinesDisjoint | Main.java:191-200 | On the statistics screen, no course appears on both lines of the same metric. |
| Ranking.EmptyRosterSummary | Main.java:191-200 | With no students, all six lines read "n/a". |
| CourseDetails.Precedes | Main.java:220-223 | One student comes before another exactly when the source's comparator (points reversed, then id) does not rank it after the other. |
| CourseDetails.Insert | Main.java:220-223 | Inserting into a list in detail order keeps it in that order and adds exactly the new student. |
| CourseDetails.SortForCourse | Main.java:220-224 | The output is in detail order (points descending, then id ascending) and is a permutation of the input. |
| CourseDetails.DetailStudents | Main.java:218-224 | The listed students are exactly those with positive points, each once, in detail order. |
| CourseDetails.SortedUnique | Main.java:220-223 | When ids are distinct, two arrangements of the same students that are both in detail order are equal. |
| CourseDetails.DetailOrderDetermined | Main.java:218-224 | Any arrangement of the enrolled students in detail order is the one the table shows. |
| CourseDetails.RosterDistinctIds | Student.java:9-19 | The records of a valid roster have distinct ids. |
| CourseDetails.RosterDetailOrderDetermined | Main.java:218-224 | For a valid roster, the table's order does not depend on how the map enumerates its records. |
| CourseDetails.PercentTenths | Main.java:228-229 | The percentage in tenths is the nearest tenth of 100 × points / threshold. On an exact half it is the upper tenth. |
| CourseDetails.HalfUpExample | Main.java:229 | 125 of 400 points is shown as 31.3 percent. |
| CourseDetails.CourseDetailRows | Main.java:226-230 | There is one row per listed student, in order, with id, points and rounded percentage. |
| CourseDetails.ShowCourseDetails | Main.java:203-231 | The input is trimmed first. An unknown course name is reported as such. A known one yields the course and the table's rows: one per student with positive points in it, in detail order. |
| Notifications.Due | Main.java:318-320 | A course is due exactly when the student has reached its threshold and has not been notified for it. |
| Notifications.NoticeFor | Main.java:321-324 | A notice carries the student's id and email and the course. When the first name has no space, the addressee's full name splits at its first space into the first and last names. |
| Notifications.NotifyCourses | Main.java:318-328 | Scanning a list of courses marks and notices exactly the due courses among them. Points, submissions and identity are unchanged. |
| Notifications.NotifyCoursesOnePerCourse | Main.java:318-327 | Over distinct courses, no two notices name the same course. |
| Notifications.NotifyCoursesCount | Main.java:318-327 | Over distinct courses, there are exactly as many notices as listed courses that are due. |
| Notifications.NotifyStudent | Main.java:317-329 | The student's notified set grows by exactly the due courses. The notices are exactly one per due course: no course twice, and as many notices as due courses. Afterwards nothing is due and every completed course is marked. |
| Notifications.DueWithinCatalogue | Main.java:318 | Scanning the four courses covers everything that can be due. |
| Notifications.SameButNotifiedKeepsValid | Main.java:325 | Changing only notified sets keeps the roster invariant. |
| Notifications.ScanIds | Main.java:316-330 | Scanning distinct stored ids changes only notified sets. Each scanned student becomes the result of its own scan. The notices are those due to scanned students, and the count is the number of scanned students with something due. |
| Notifications.ScanNoticesDistinct | Main.java:316-330 | Over distinct ids whose records carry their own id, no notice is sent twice. |
| Notifications.NotifyStudents | Main.java:313-333 | The roster stays valid and changes only in notified sets. Every student ends with every completed course marked and no marking lost. The notices are exactly the due ones, with no notice twice. The count is the number of students who had something due. |
| Notifications.QuietScan | Main.java:320 | A scan with nothing due sends no notice and counts zero. |
| Notifications.RescanSilent | Main.java:320-325 | A second scan right after a scan sends nothing. |
| Notifications.NotifiedStaysQuiet | Student.java:56-62 | A notified course is never due again, whatever points lines follow. |
| Notifications.FullMarksDue | Main.java:15-20 | A new student given exactly 600, 400, 480 and 550 points has every course due. |
| Notifications.SingleStudentScan | Main.java:316-330 | For a single student with every course due, the scan sends exactly four notices, one per course, all addressed to that student, and counts one. |

## Left out

- Console I/O is not modelled: the prompts, the command loop, the "back" and "exit" handling, and printing. The commands take the lines read before "back" as a sequence and return replies as values.
- The name and email regular expressions (Main.java:174-189) are a parameter, `Rosters.Validators`, because regular-expression matching is not opened up.
- `Integer.parseInt` is a parameter, `Rosters.IntParser`, that returns `None` for a malformed number. The model does not fix which strings parse.
- Java `int` overflow of points, counters and the id counter is not modelled. All counters are unbounded naturals.
- Statistics.AverageScore: the average is an exact rational, not a `double`, so rounding in `double` division and comparison is not modelled. Ties are decided on exact values.
- CourseDetails.PercentTenths: rounds the exact ratio 100 × points / threshold half up, instead of the `double` quotient read back through `BigDecimal.valueOf`. The two can differ only where `double` rounding moves a value across a half tenth.
- Ranking.PrintCategory: returns the named courses as a set, because the source lists them in `HashMap` iteration order, which is unspecified.
- Notifications.NotifyStudents: scans courses in the order Java, DSA, Databases, Spring. The source's order is that of `Map.of`, which is unspecified. All properties are stated over the set of notices and their number, so they hold for every order.
- `Student.getProgress` string formatting is not modelled. `Rosters.FindStudent` returns the id and the four point values that the string shows.
- Rosters.FindStudent: keeps the trimmed input in its "not found" reply. For an id that parses but is not stored, the source prints the parsed number instead (Main.java:164), which differs only in rendering (for example, leading zeros).
- `Rosters.RecordPoints` keeps the unparsed id text in its "not found" reply. For an id that parses but is not stored, the source prints the parsed number instead, which differs only in rendering (for example, leading zeros).
- Courses.FormatCourseName: lower-cases ASCII letters only, which is `toLowerCase` under a default locale that is not Turkish or Azerbaijani. Under such a locale Java maps `I` to dotless `ı` and `İ` to `i`, so the source would reject "SPRING" typed with a capital `I` and accept "SPRİNG". The model fixes the locale-independent reading. Under other locales no non-ASCII letter lower-cases to the letters of "java", "dsa", "databases" or "spring", so the lookup's answers are the same, although `ToLower` alone is weaker than Java's.
- `idCounter` is a field of the roster rather than process-wide static state. A single roster is what the program uses.

=== FILE: courses.dfy ===
/**
 * The fixed catalogue of four courses, their display names, their
 * completion thresholds and the case-insensitive lookup of a course by
 * the name a user types.
 */
module Courses {
  import opened Results

  datatype Course = Java | DSA | Databases | Spring

  /** The four courses, in the order the student record initialises them. */
  const AllCourses: seq<Course> := [Java, DSA, Databases, Spring]

  const CourseSet: set<Course> := {Java, DSA, Databases, Spring}

  /** The threshold table: points needed to complete each course. */
  function Threshold(c: Course): nat
  {
    match c
    case Java => 600
    case DSA => 400
    case Databases => 480
    case Spring => 550
  }

  function Name(c: Course): string
  {
    match c
    case Java => "Java"
    case DSA => "DSA"
    case Databases => "Databases"
    case Spring => "Spring"
  }

  lemma CatalogueComplete(c: Course)
    ensures c in AllCourses && c in CourseSet
    ensures |AllCourses| == 4 && |CourseSet| == 4
  {
  }

  /** Lower-case of one character; only 'A'..'Z' change. */
  function LowerChar(ch: char): char
  {
    if 'A' <= ch <= 'Z' then (ch as int - 'A' as int + 'a' as int) as char else ch
  }

  function ToLower(s: string): (r: string)
    ensures |r| == |s|
    ensures forall i :: 0 <= i < |s| ==> r[i] == LowerChar(s[i])
  {
    if s == [] then [] else [LowerChar(s[0])] + ToLower(s[1..])
  }

  /** The all-lower-case spelling of each display name. */
  lemma LowerName(c: Course)
    ensures ToLower(Name(c)) == match c
      case Java => "java"
      case DSA => "dsa"
      case Databases => "databases"
      case Spring => "spring"
  {
    match c
    case Java => LowerLiteral("Java", "java");
    case DSA => LowerLiteral("DSA", "dsa");
    case Databases => LowerLiteral("Databases", "databases");
    case Spring => LowerLiteral("Spring", "spring");
  }

  lemma LowerLiteral(n: string, l: string)
    requires |n| == |l| && forall i :: 0 <= i < |n| ==> LowerChar(n[i]) == l[i]
    ensures ToLower(n) == l
  {
  }

  /**
   * The course a typed name denotes, compared case-insensitively; `None`
   * stands for the empty string the shell treats as an unknown course.
   */
  function FormatCourseName(input: string): (r: Option<Course>)
    ensures forall c :: r == Some(c) <==> ToLower(input) == ToLower(Name(c))
  {
    LowerName(Java); LowerName(DSA); LowerName(Databases); LowerName(Spring);
    var low := ToLower(input);
    if low == "java" then Some(Java)
    else if low == "dsa" then Some(DSA)
    else if low == "databases" then Some(Databases)
    else if low == "spring" then Some(Spring)
    else None
  }

  /** Every course is found again from its own display name. */
  lemma FormatCourseNameRoundTrip(c: Course)
    ensures FormatCourseName(Name(c)) == Some(c)
  {
  }
}

=== FILE: credentials.dfy ===
/**
 * The string handling of a credentials line: Java's `trim`, the
 * `split(" ")` arity guard, and the `indexOf`/`lastIndexOf` split into
 * first name, last name (which may hold spaces) and email.
 */
module Credentials {
  import opened Results

  datatype Credentials = Credentials(firstName: string, lastName: string, email: string)

  datatype CredentialsError = TooFewParts

  /** Java's `trim` drops characters up to and including U+0020 at both ends. */
  predicate IsTrimmable(ch: char)
  {
    ch <= ' '
  }

  predicate Trimmed(s: string)
  {
    |s| > 0 ==> !IsTrimmable(s[0]) && !IsTrimmable(s[|s| - 1])
  }

  function TrimStart(s: string): (r: string)
    ensures |r| <= |s| && r == s[|s| - |r|..]
    ensures |r| > 0 ==> !IsTrimmable(r[0])
    ensures forall i :: 0 <= i < |s| - |r| ==> IsTrimmable(s[i])
  {
    if |s| > 0 && IsTrimmable(s[0]) then
      var r := TrimStart(s[1..]);
      TrimStartStep(s, r);
      r
    else s
  }

  /** One more trimmable character in front leaves the same trimmed suffix. */
  lemma TrimStartStep(s: string, r: string)
    requires |s| > 0 && IsTrimmable(s[0])
    requires |r| <= |s| - 1 && r == s[1..][|s| - 1 - |r|..]
    requires forall i :: 0 <= i < |s| - 1 - |r| ==> IsTrimmable(s[1..][i])
    ensures r == s[|s| - |r|..]
    ensures forall i :: 0 <= i < |s| - |r| ==> IsTrimmable(s[i])
  {
    forall i | 0 < i < |s| - |r|
      ensures IsTrimmable(s[i])
    {
      assert s[i] == s[1..][i - 1];
    }
  }

  function TrimEnd(s: string): (r: string)
    ensures |r| <= |s| && r == s[..|r|]
    ensures |r| > 0 ==> !IsTrimmable(r[|r| - 1])
    ensures forall i :: |r| <= i < |s| ==> IsTrimmable(s[i])
  {
    if |s| > 0 && IsTrimmable(s[|s| - 1]) then
      var r := TrimEnd(s[..|s| - 1]);
      assert s[..|s| - 1][..|r|] == s[..|r|];
      r
    else s
  }

  /**
   * The trimmed line is the infix of the input left after dropping every
   * trimmable character at either end.
   */
  function Trim(s: string): (r: string)
    ensures Trimmed(r)
    ensures exists i, j ::
      && 0 <= i <= j <= |s| && r == s[i..j]
      && (forall k :: 0 <= k < i ==> IsTrimmable(s[k]))
      && (forall k :: j <= k < |s| ==> IsTrimmable(s[k]))
  {
    var a := TrimStart(s);
    var r := TrimEnd(a);
    TrimBounds(s, a, r);
    r
  }

  /** The trimmed line sits between a trimmable prefix and a trimmable suffix of the input. */
  lemma TrimBounds(s: string, a: string, r: string)
    requires |a| <= |s| && a == s[|s| - |a|..]
    requires forall i :: 0 <= i < |s| - |a| ==> IsTrimmable(s[i])
    requires |r| <= |a| && r == a[..|r|]
    requires forall i :: |r| <= i < |a| ==> IsTrimmable(a[i])
    ensures exists i, j ::
      && 0 <= i <= j <= |s| && r == s[i..j]
      && (forall k :: 0 <= k < i ==> IsTrimmable(s[k]))
      && (forall k :: j <= k < |s| ==> IsTrimmable(s[k]))
  {
    var i := |s| - |a|;
    var j := i + |r|;
    assert r == s[i..j];
    forall k | j <= k < |s|
      ensures IsTrimmable(s[k])
    {
      assert s[k] == a[k - i];
    }
  }

  /** Trimming a line that starts and ends with visible characters keeps it. */
  lemma TrimKeepsTrimmed(s: string)
    requires Trimmed(s)
    ensures Trim(s) == s
  {
  }

  /** Java's `indexOf`: the first position of `ch`, or -1. */
  function IndexOf(s: string, ch: char): (r: int)
    ensures -1 <= r < |s|
    ensures r == -1 <==> ch !in s
    ensures r >= 0 ==> s[r] == ch && ch !in s[..r]
  {
    if |s| == 0 then -1
    else if s[0] == ch then 0
    else
      var k := IndexOf(s[1..], ch);
      assert s == [s[0]] + s[1..];
      if k == -1 then -1 else (assert s[..k + 1] == [s[0]] + s[1..][..k]; k + 1)
  }

  /** Java's `lastIndexOf`: the last position of `ch`, or -1. */
  function LastIndexOf(s: string, ch: char): (r: int)
    ensures -1 <= r < |s|
    ensures r == -1 <==> ch !in s
    ensures r >= 0 ==> s[r] == ch && ch !in s[r + 1..]
  {
    if |s| == 0 then -1
    else if s[|s| - 1] == ch then |s| - 1
    else
      var k := LastIndexOf(s[..|s| - 1], ch);
      LastIndexStep(s, ch, k);
      k
  }

  /** Extending a string by a character other than `ch` keeps its last `ch` where it was. */
  lemma LastIndexStep(s: string, ch: char, k: int)
    requires |s| > 0 && s[|s| - 1] != ch
    requires -1 <= k < |s| - 1
    requires k == -1 <==> ch !in s[..|s| - 1]
    requires k >= 0 ==> s[k] == ch && ch !in s[..|s| - 1][k + 1..]
    ensures k == -1 <==> ch !in s
    ensures k >= 0 ==> ch !in s[k + 1..]
  {
    var n := |s| - 1;
    if k == -1 {
      forall i | 0 <= i < |s|
        ensures s[i] != ch
      {
        if i < n { assert s[i] == s[..n][i]; }
      }
    } else {
      assert s[k] == ch;
      forall i | k + 1 <= i < |s|
        ensures s[i] != ch
      {
        if i < n { assert s[i] == s[..n][k + 1..][i - k - 1]; }
      }
    }
  }

  function CountSpaces(s: string): nat
  {
    multiset(s)[' ']
  }

  /** The pieces joined with one space between neighbours. */
  function Join(parts: seq<string>): string
  {
    if |parts| == 0 then ""
    else if |parts| == 1 then parts[0]
    else parts[0] + " " + Join(parts[1..])
  }

  /**
   * The pieces between single spaces, empty pieces included: joining them
   * back with single spaces gives the line.
   */
  function SplitOnSpace(s: string): (parts: seq<string>)
    ensures |parts| > 0
    ensures forall i :: 0 <= i < |parts| ==> ' ' !in parts[i]
    ensures Join(parts) == s
    decreases |s|
  {
    var i := IndexOf(s, ' ');
    if i < 0 then [s]
    else
      var rest := SplitOnSpace(s[i + 1..]);
      assert s == s[..i] + " " + s[i + 1..];
      assert ([s[..i]] + rest)[1..] == rest;
      [s[..i]] + rest
  }

  /** Drops the empty pieces at the end, and only those. */
  function DropTrailingEmpty(parts: seq<string>): (kept: seq<string>)
    ensures kept <= parts
    ensures |kept| > 0 ==> kept[|kept| - 1] != []
    ensures forall i :: |kept| <= i < |parts| ==> parts[i] == []
  {
    if |parts| > 0 && parts[|parts| - 1] == [] then DropTrailingEmpty(parts[..|parts| - 1]) else parts
  }

  /**
   * Java's `split(" ")` with no limit: a line without a space is returned
   * whole; otherwise the pieces, with trailing empty pieces discarded.
   */
  function JavaSplit(s: string): (parts: seq<string>)
    ensures ' ' !in s ==> parts == [s]
    ensures forall i :: 0 <= i < |parts| ==> ' ' !in parts[i]
    ensures ' ' in s && |parts| > 0 ==> parts[|parts| - 1] != []
    ensures |parts| <= CountSpaces(s) + 1
    ensures Trimmed(s) ==> Join(parts) == s
  {
    if ' ' !in s then [s]
    else
      SplitKeptPieces(s);
      DropTrailingEmpty(SplitOnSpace(s))
  }

  /**
   * The pieces kept after dropping trailing empty ones have no space, are
   * no more than the spaces plus one, and on a trimmed line are all pieces.
   */
  lemma SplitKeptPieces(s: string)
    requires ' ' in s
    ensures var kept := DropTrailingEmpty(SplitOnSpace(s));
      && (forall i :: 0 <= i < |kept| ==> ' ' !in kept[i])
      && |kept| <= CountSpaces(s) + 1
      && (Trimmed(s) ==> kept == SplitOnSpace(s))
  {
    var parts := SplitOnSpace(s);
    KeptPrefix(parts);
    SplitOnSpaceLength(s);
    if Trimmed(s) {
      SplitOnSpaceLastPiece(s);
      KeptAll(parts);
    }
  }

  lemma KeptPrefix(parts: seq<string>)
    requires forall i :: 0 <= i < |parts| ==> ' ' !in parts[i]
    ensures var kept := DropTrailingEmpty(parts);
      |kept| <= |parts| && forall i :: 0 <= i < |kept| ==> ' ' !in kept[i]
  {
    var kept := DropTrailingEmpty(parts);
    assert forall i :: 0 <= i < |kept| ==> kept[i] == parts[i];
  }

  lemma KeptAll(parts: seq<string>)
    requires |parts| > 0 && parts[|parts| - 1] != []
    ensures DropTrailingEmpty(parts) == parts
  {
  }


  lemma {:induction false} SplitOnSpaceLength(s: string)
    ensures |SplitOnSpace(s)| == CountSpaces(s) + 1
    decreases |s|
  {
    var i := IndexOf(s, ' ');
    if i >= 0 {
      SplitOnSpaceLength(s[i + 1..]);
      assert s == s[..i] + [' '] + s[i + 1..];
      assert multiset(s) == multiset(s[..i]) + multiset{' '} + multiset(s[i + 1..]);
    }
  }

  lemma {:induction false} SplitOnSpaceLastPiece(s: string)
    requires |s| > 0 && s[|s| - 1] != ' '
    ensures SplitOnSpace(s)[|SplitOnSpace(s)| - 1] != []
    decreases |s|
  {
    var i := IndexOf(s, ' ');
    if i >= 0 {
      assert i < |s| - 1;
      var rest := s[i + 1..];
      assert rest[|rest| - 1] == s[|s| - 1];
      SplitOnSpaceLastPiece(rest);
      LastOfCons(s[..i], SplitOnSpace(rest));
    }
  }

  lemma LastOfCons(a: string, parts: seq<string>)
    requires |parts| > 0
    ensures ([a] + parts)[|parts|] == parts[|parts| - 1]
  {
  }

  /** On a trimmed line, `split(" ")` yields one piece more than there are spaces. */
  lemma SplitArity(s: string)
    requires Trimmed(s)
    ensures |JavaSplit(s)| == CountSpaces(s) + 1
  {
    SplitOnSpaceLength(s);
    if |s| > 0 {
      SplitOnSpaceLastPiece(s);
    }
  }

  lemma TwoSpacesApart(s: string)
    requires CountSpaces(s) >= 2
    ensures 0 <= IndexOf(s, ' ') < LastIndexOf(s, ' ')
  {
    var f := IndexOf(s, ' ');
    var l := LastIndexOf(s, ' ');
    assert s == s[..f] + [' '] + s[f + 1..];
    assert multiset(s) == multiset(s[..f]) + multiset{' '} + multiset(s[f + 1..]);
    assert ' ' in multiset(s[f + 1..]);
    var j :| 0 <= j < |s[f + 1..]| && s[f + 1..][j] == ' ';
  }

  lemma JoinAtSpaces(t: string, f: int, l: int)
    requires 0 <= f < l < |t| && t[f] == ' ' && t[l] == ' '
    ensures t[..f] + " " + t[f + 1..l] + " " + t[l + 1..] == t
  {
    assert t == t[..f] + [t[f]] + t[f + 1..l] + [t[l]] + t[l + 1..];
  }

  /**
   * Splits a credentials line: it is trimmed, rejected when `split(" ")`
   * gives fewer than three pieces, and otherwise cut at its first and last
   * space.
   */
  function ParseCredentials(line: string): (r: Result<Credentials, CredentialsError>)
    ensures r.Err? <==> CountSpaces(Trim(line)) < 2
    ensures r.Ok? ==> r.value.firstName + " " + r.value.lastName + " " + r.value.email == Trim(line)
    ensures r.Ok? ==> ' ' !in r.value.firstName && ' ' !in r.value.email
  {
    var t := Trim(line);
    SplitArity(t);
    if |JavaSplit(t)| < 3 then Err(TooFewParts)
    else
      TwoSpacesApart(t);
      var f := IndexOf(t, ' ');
      var l := LastIndexOf(t, ' ');
      JoinAtSpaces(t, f, l);
      Ok(Credentials(t[..f], t[f + 1..l], t[l + 1..]))
  }

  /**
   * Joining space-free first name and email around a last name and parsing
   * the line gives the three parts back.
   */
  lemma ParseCredentialsRoundTrip(first: string, last: string, email: string)
    requires ' ' !in first && ' ' !in email
    requires Trimmed(first + " " + last + " " + email)
    ensures ParseCredentials(first + " " + last + " " + email) == Ok(Credentials(first, last, email))
  {
    var line := first + " " + last + " " + email;
    TrimKeepsTrimmed(line);
    var r := ParseCredentials(line);
    assert CountSpaces(line) >= 2 by {
      assert multiset(line) == multiset(first) + multiset{' '} + multiset(last) + multiset{' '} + multiset(email);
    }
    assert r.Ok?;
    var c := r.value;
    SplitUnique(c.firstName, c.lastName, c.email, first, last, email);
  }

  /** The space-free first name and email around the last name are determined by the line. */
  lemma SplitUnique(a1: string, b1: string, c1: string, a2: string, b2: string, c2: string)
    requires ' ' !in a1 && ' ' !in c1 && ' ' !in a2 && ' ' !in c2
    requires a1 + " " + b1 + " " + c1 == a2 + " " + b2 + " " + c2
    ensures a1 == a2 && b1 == b2 && c1 == c2
  {
    assert a1 + " " + b1 + " " + c1 == a1 + " " + (b1 + " " + c1);
    assert a2 + " " + b2 + " " + c2 == a2 + " " + (b2 + " " + c2);
    SpaceFreeHead(a1, b1 + " " + c1, a2, b2 + " " + c2);
    SpaceFreeTail(b1, c1, b2, c2);
  }

  lemma FirstSpaceAt(x: string, a: string, b: string)
    requires ' ' !in a && x == a + " " + b
    ensures IndexOf(x, ' ') == |a|
  {
    assert x[|a|] == ' ';
    assert x[..|a|] == a;
  }

  lemma LastSpaceAt(x: string, a: string, b: string)
    requires ' ' !in b && x == a + " " + b
    ensures LastIndexOf(x, ' ') == |a|
  {
    assert x[|a|] == ' ';
    assert x[|a| + 1..] == b;
  }

  /** A space-free head before the first space is determined by the line. */
  lemma SpaceFreeHead(a: string, b: string, c: string, d: string)
    requires ' ' !in a && ' ' !in c
    requires a + " " + b == c + " " + d
    ensures a == c && b == d
  {
    var x := a + " " + b;
    FirstSpaceAt(x, a, b);
    FirstSpaceAt(x, c, d);
    assert x[..|a|] == a && x[|a| + 1..] == b;
    assert x[..|c|] == c && x[|c| + 1..] == d;
  }

  /** A space-free tail after the last space is determined by the line. */
  lemma SpaceFreeTail(a: string, b: string, c: string, d: string)
    requires ' ' !in b && ' ' !in d
    requires a + " " + b == c + " " + d
    ensures a == c && b == d
  {
    var x := a + " " + b;
    LastSpaceAt(x, a, b);
    LastSpaceAt(x, c, d);
    assert x[..|a|] == a && x[|a| + 1..] == b;
    assert x[..|c|] == c && x[|c| + 1..] == d;
  }
}

=== FILE: details.dfy ===
/**
 * The course detail screen: the students with positive points in one
 * course, best first, ties by ascending id, each with the share of the
 * completion threshold reached, rounded half up to one decimal.
 */
module CourseDetails {
  import opened Results
  import opened Courses
  import opened Students
  import opened Statistics
  import opened Rosters
  import opened Credentials

  /** Java's `Integer.compare`: the sign of `x - y`. */
  function CompareInt(x: int, y: int): int
  {
    if x < y then -1 else if x == y then 0 else 1
  }

  /**
   * The comparator of the detail table: points compared in reverse, then
   * ids compared ascending when the points tie.
   */
  function DetailCompare(a: Student, b: Student, c: Course): int
  {
    var byPoints := CompareInt(b.Points(c), a.Points(c));
    if byPoints != 0 then byPoints else CompareInt(a.id, b.id)
  }

  /** The detail ordering: more points first, then the smaller id. */
  predicate Precedes(a: Student, b: Student, c: Course): (p: bool)
    ensures p <==> DetailCompare(a, b, c) <= 0
  {
    a.Points(c) > b.Points(c) || (a.Points(c) == b.Points(c) && a.id <= b.id)
  }

  predicate SortedFor(ss: seq<Student>, c: Course)
  {
    forall i, j :: 0 <= i < j < |ss| ==> Precedes(ss[i], ss[j], c)
  }

  /** No two different records share an id. */
  predicate DistinctIds(ss: seq<Student>)
  {
    forall x, y :: x in ss && y in ss && x.id == y.id ==> x == y
  }

  function Insert(x: Student, ss: seq<Student>, c: Course): (r: seq<Student>)
    requires SortedFor(ss, c)
    ensures SortedFor(r, c)
    ensures multiset(r) == multiset(ss) + multiset{x}
  {
    if ss == [] then [x]
    else if Precedes(x, ss[0], c) then [x] + ss
    else
      var rest := Insert(x, ss[1..], c);
      InsertStep(x, ss, rest, c);
      [ss[0]] + rest
  }

  /** The head of a sorted list stays in front when `x` goes somewhere after it. */
  lemma InsertStep(x: Student, ss: seq<Student>, rest: seq<Student>, c: Course)
    requires |ss| > 0 && SortedFor(ss, c) && !Precedes(x, ss[0], c)
    requires SortedFor(rest, c) && multiset(rest) == multiset(ss[1..]) + multiset{x}
    ensures SortedFor([ss[0]] + rest, c)
    ensures multiset([ss[0]] + rest) == multiset(ss) + multiset{x}
  {
    assert ss == [ss[0]] + ss[1..];
    forall y | y in multiset(rest)
      ensures Precedes(ss[0], y, c)
    {
      if y != x {
        assert y in multiset(ss[1..]);
        var k :| 0 <= k < |ss[1..]| && ss[1..][k] == y;
        assert ss[k + 1] == y;
      }
    }
    assert forall j :: 0 <= j < |rest| ==> rest[j] in multiset(rest);
  }

  /** Sorts students into detail order (an insertion sort). */
  function SortForCourse(ss: seq<Student>, c: Course): (r: seq<Student>)
    ensures SortedFor(r, c)
    ensures multiset(r) == multiset(ss)
  {
    if ss == [] then []
    else
      assert ss == [ss[0]] + ss[1..];
      Insert(ss[0], SortForCourse(ss[1..], c), c)
  }

  /** One line of the detail table: id, points, percent in tenths. */
  datatype Row = Row(id: int, points: nat, percentTenths: nat)

  /**
   * `100 * points / threshold` rounded half up to one decimal, as a count of
   * tenths: the nearest tenth, and the upper one on an exact half.
   */
  function PercentTenths(points: nat, threshold: nat): (tenths: nat)
    requires threshold > 0
    ensures 2 * tenths * threshold <= 2000 * points + threshold < 2 * (tenths + 1) * threshold
  {
    (2000 * points + threshold) / (2 * threshold)
  }

  /** Half a tenth rounds up: 125 of 400 points is 31.25%, shown as 31.3. */
  lemma HalfUpExample()
    ensures PercentTenths(125, 400) == 313
  {
  }

  function ToRow(s: Student, c: Course): (row: Row)
  {
    Row(s.id, s.Points(c), PercentTenths(s.Points(c), Threshold(c)))
  }

  /**
   * The students listed for a course: exactly those with positive points,
   * in detail order.
   */
  function DetailStudents(ss: seq<Student>, c: Course): (r: seq<Student>)
    ensures multiset(r) == multiset(EnrolledStudents(ss, c))
    ensures forall s :: s in r <==> s in ss && s.Points(c) > 0
    ensures SortedFor(r, c)
  {
    var r := SortForCourse(EnrolledStudents(ss, c), c);
    assert forall s :: s in r <==> s in multiset(r);
    r
  }

  /** The rows of the detail table for a course. */
  function CourseDetailRows(ss: seq<Student>, c: Course): (rows: seq<Row>)
    ensures |rows| == |DetailStudents(ss, c)|
    ensures forall i :: 0 <= i < |rows| ==> rows[i] == ToRow(DetailStudents(ss, c)[i], c)
  {
    var d := DetailStudents(ss, c);
    seq(|d|, i requires 0 <= i < |d| => ToRow(d[i], c))
  }

  datatype DetailError = UnknownCourse

  /**
   * Looks up a typed course name, trimmed and case-insensitively, and lists its rows
   * over the roster's students.
   */
  function ShowCourseDetails(r: Roster, input: string): (out: Result<(Course, seq<Row>), DetailError>)
    requires forall i :: 0 <= i < |r.order| ==> r.order[i] in r.byId
    ensures out.Err? <==> FormatCourseName(Trim(input)).None?
    ensures out.Ok? ==> out.value.0 == FormatCourseName(Trim(input)).value
    ensures out.Ok? ==> out.value.1 == CourseDetailRows(Values(r), out.value.0)
    ensures out.Ok? ==> |out.value.1| == |EnrolledStudents(Values(r), out.value.0)|
  {
    match FormatCourseName(Trim(input))
    case None => Err(UnknownCourse)
    case Some(c) =>
      var ss := Values(r);
      assert |DetailStudents(ss, c)| == |EnrolledStudents(ss, c)| by {
        assert |multiset(DetailStudents(ss, c))| == |multiset(EnrolledStudents(ss, c))|;
      }
      Ok((c, CourseDetailRows(ss, c)))
  }

  lemma HeadsAgree(a: seq<Student>, b: seq<Student>, c: Course)
    requires |a| > 0 && multiset(a) == multiset(b)
    requires SortedFor(a, c) && SortedFor(b, c) && DistinctIds(a)
    ensures |b| > 0 && a[0] == b[0]
  {
    assert a[0] in multiset(b);
    var l :| 0 <= l < |b| && b[l] == a[0];
    assert b[0] in multiset(a);
    var k :| 0 <= k < |a| && a[k] == b[0];
    assert Precedes(a[0], b[0], c) by {
      if k > 0 { assert Precedes(a[0], a[k], c); }
    }
    assert Precedes(b[0], a[0], c) by {
      if l > 0 { assert Precedes(b[0], b[l], c); }
    }
    assert b[0] in a;
  }

  /**
   * With distinct ids the detail order is total: two sorted arrangements of
   * the same students are the same sequence.
   */
  lemma {:induction false} SortedUnique(a: seq<Student>, b: seq<Student>, c: Course)
    requires multiset(a) == multiset(b)
    requires SortedFor(a, c) && SortedFor(b, c) && DistinctIds(a)
    ensures a == b
    decreases |a|
  {
    if a == [] {
      assert |b| == |multiset(b)| == 0;
    } else {
      HeadsAgree(a, b, c);
      SortedTail(a, c);
      SortedTail(b, c);
      assert DistinctIds(a[1..]) by {
        assert forall x :: x in a[1..] ==> x in a;
      }
      SortedUnique(a[1..], b[1..], c);
      assert a == [a[0]] + a[1..] && b == [b[0]] + b[1..];
    }
  }

  /** Dropping the head of a sorted arrangement leaves a sorted arrangement of the rest. */
  lemma SortedTail(a: seq<Student>, c: Course)
    requires |a| > 0 && SortedFor(a, c)
    ensures SortedFor(a[1..], c)
    ensures multiset(a[1..]) == multiset(a) - multiset{a[0]}
  {
    assert a == [a[0]] + a[1..];
  }

  /**
   * The detail rows are determined: any arrangement of the enrolled
   * students in detail order is the one the screen shows.
   */
  lemma DetailOrderDetermined(ss: seq<Student>, c: Course, other: seq<Student>)
    requires DistinctIds(ss)
    requires multiset(other) == multiset(EnrolledStudents(ss, c)) && SortedFor(other, c)
    ensures other == DetailStudents(ss, c)
  {
    var d := DetailStudents(ss, c);
    assert DistinctIds(d);
    SortedUnique(d, other, c);
  }

  /** A valid roster hands out records with distinct ids. */
  lemma RosterDistinctIds(r: Roster)
    requires Rosters.Valid(r)
    ensures DistinctIds(Values(r))
  {
    var ss := Values(r);
    forall x, y | x in ss && y in ss && x.id == y.id
      ensures x == y
    {
      var i :| 0 <= i < |ss| && ss[i] == x;
      var j :| 0 <= j < |ss| && ss[j] == y;
    }
  }

  /**
   * On a valid roster the detail table's order does not depend on how the
   * records were enumerated: any sorted arrangement of the enrolled
   * students is the one the table shows.
   */
  lemma RosterDetailOrderDetermined(r: Roster, c: Course, other: seq<Student>)
    requires Rosters.Valid(r)
    requires multiset(other) == multiset(EnrolledStudents(Values(r), c)) && SortedFor(other, c)
    ensures other == DetailStudents(Values(r), c)
  {
    RosterDistinctIds(r);
    DetailOrderDetermined(Values(r), c, other);
  }
}

=== FILE: notify.dfy ===
/**
 * The notification scan: every student who has reached a course's
 * completion threshold and has not yet been told so gets one notice for
 * that course, and the course is marked; the scan reports how many
 * students received at least one notice.
 */
module Notifications {
  import opened Courses
  import opened Students
  import opened Rosters
  import opened Credentials

  /** The courses whose notice is due: completed and not yet notified. */
  function Due(s: Student): (due: set<Course>)
    ensures forall c :: c in due <==> HasCompleted(s, c, Threshold(c)) && !IsNotifiedFor(s, c)
  {
    set c | c in CourseSet && HasCompleted(s, c, Threshold(c)) && !IsNotifiedFor(s, c)
  }

  /** One completion message: addressee, greeting name and course. */
  datatype Notice = Notice(id: int, email: string, fullName: string, course: Course)

  /**
   * The notice for one course: sent to the student's email, about that
   * course, greeting the student by a name whose first space separates
   * the first name from the last name.
   */
  function NoticeFor(s: Student, c: Course): (n: Notice)
    ensures n.id == s.id && n.email == s.email && n.course == c
    ensures ' ' !in s.firstName ==>
      var k := IndexOf(n.fullName, ' ');
      0 <= k && n.fullName[..k] == s.firstName && n.fullName[k + 1..] == s.lastName
  {
    FullNameFirstSpace(s);
    Notice(s.id, s.email, FullName(s), c)
  }

  /** No course is listed twice. */
  predicate DistinctCourses(cs: seq<Course>)
  {
    forall i, j :: 0 <= i < j < |cs| ==> cs[i] != cs[j]
  }

  /** No two notices are about the same course. */
  predicate OneNoticePerCourse(ns: seq<Notice>)
  {
    forall i, j :: 0 <= i < j < |ns| ==> ns[i].course != ns[j].course
  }

  /** Notices about pairwise different courses are as many as the courses they name. */
  lemma {:induction false} OneNoticePerCourseCount(ns: seq<Notice>)
    requires OneNoticePerCourse(ns)
    ensures |ns| == |set n | n in ns :: n.course|
    decreases |ns|
  {
    if ns != [] {
      var tail := ns[1..];
      assert OneNoticePerCourse(tail);
      OneNoticePerCourseCount(tail);
      HeadCourseIsNew(ns);
      CoursesOfCons(ns);
    }
  }

  lemma HeadCourseIsNew(ns: seq<Notice>)
    requires |ns| > 0 && OneNoticePerCourse(ns)
    ensures ns[0].course !in (set n | n in ns[1..] :: n.course)
  {
  }

  lemma CoursesOfCons(ns: seq<Notice>)
    requires |ns| > 0
    ensures (set n | n in ns :: n.course) == (set n | n in ns[1..] :: n.course) + {ns[0].course}
  {
    var tail := ns[1..];
    var all := set n | n in ns :: n.course;
    var rest := (set n | n in tail :: n.course) + {ns[0].course};
    forall x | x in all
      ensures x in rest
    {
      var n :| n in ns && n.course == x;
      if n != ns[0] {
        var j :| 0 <= j < |ns| && ns[j] == n;
        assert tail[j - 1] == n;
      }
    }
    forall x | x in rest
      ensures x in all
    {
      if x != ns[0].course {
        var n :| n in tail && n.course == x;
        assert n in ns;
      } else {
        assert ns[0] in ns;
      }
    }
  }

  /** Dropping the first of distinct courses leaves distinct courses without it. */
  lemma DistinctTail(cs: seq<Course>)
    requires |cs| > 0 && DistinctCourses(cs)
    ensures DistinctCourses(cs[1..]) && cs[0] !in cs[1..]
  {
  }

  /** A notice about a course the following notices do not name keeps them one per course. */
  lemma ConsOneNotice(n: Notice, rest: seq<Notice>)
    requires OneNoticePerCourse(rest)
    requires forall m :: m in rest ==> m.course != n.course
    ensures OneNoticePerCourse([n] + rest)
  {
    var out := [n] + rest;
    forall i, j | 0 <= i < j < |out|
      ensures out[i].course != out[j].course
    {
      assert out[j] == rest[j - 1];
      if i > 0 {
        assert out[i] == rest[i - 1];
      } else {
        assert rest[j - 1] in rest;
      }
    }
  }

  /**
   * The inner loop for one student: walks the courses, emitting a notice
   * and marking the course for each one that is completed and unmarked.
   */
  function NotifyCourses(s: Student, cs: seq<Course>): (out: (Student, seq<Notice>))
    ensures out.0.id == s.id && out.0.email == s.email
    ensures out.0.firstName == s.firstName && out.0.lastName == s.lastName
    ensures out.0.points == s.points && out.0.submissions == s.submissions
    ensures out.0.notified == s.notified + (set c | c in cs && c in Due(s))
    ensures forall n :: n in out.1 <==> n.course in cs && n.course in Due(s) && n == NoticeFor(s, n.course)
    ensures |out.1| > 0 <==> exists c :: c in cs && c in Due(s)
    decreases |cs|
  {
    if cs == [] then (s, [])
    else
      var c := cs[0];
      if HasCompleted(s, c, Threshold(c)) && !IsNotifiedFor(s, c) then
        var s1 := MarkNotified(s, c);
        var rest := NotifyCourses(s1, cs[1..]);
        NoticedStep(s, cs, rest.0, rest.1);
        (rest.0, [NoticeFor(s, c)] + rest.1)
      else
        var rest := NotifyCourses(s, cs[1..]);
        SkippedStep(s, cs, rest.0, rest.1);
        rest
  }

  /** The inner loop's step for a first course that is due: it is noticed and marked. */
  lemma NoticedStep(s: Student, cs: seq<Course>, s2: Student, ns: seq<Notice>)
    requires |cs| > 0 && cs[0] in Due(s)
    requires s2.notified == MarkNotified(s, cs[0]).notified + (set d | d in cs[1..] && d in Due(MarkNotified(s, cs[0])))
    requires forall n :: n in ns <==>
      n.course in cs[1..] && n.course in Due(MarkNotified(s, cs[0])) && n == NoticeFor(MarkNotified(s, cs[0]), n.course)
    ensures s2.notified == s.notified + (set d | d in cs && d in Due(s))
    ensures forall n :: n in [NoticeFor(s, cs[0])] + ns <==> n.course in cs && n.course in Due(s) && n == NoticeFor(s, n.course)
    ensures exists d :: d in cs && d in Due(s)
  {
    MarkedStep(s, cs[0]);
    assert forall d :: d in cs <==> d == cs[0] || d in cs[1..];
  }

  /** The inner loop's step for a first course that is not due: it is passed over. */
  lemma SkippedStep(s: Student, cs: seq<Course>, s2: Student, ns: seq<Notice>)
    requires |cs| > 0 && cs[0] !in Due(s)
    requires s2.notified == s.notified + (set d | d in cs[1..] && d in Due(s))
    requires forall n :: n in ns <==> n.course in cs[1..] && n.course in Due(s) && n == NoticeFor(s, n.course)
    requires |ns| > 0 <==> exists d :: d in cs[1..] && d in Due(s)
    ensures s2.notified == s.notified + (set d | d in cs && d in Due(s))
    ensures forall n :: n in ns <==> n.course in cs && n.course in Due(s) && n == NoticeFor(s, n.course)
    ensures |ns| > 0 <==> exists d :: d in cs && d in Due(s)
  {
    assert forall d :: d in cs <==> d == cs[0] || d in cs[1..];
  }

  /** Marking a course takes exactly it out of the due set and leaves every notice as it was. */
  lemma MarkedStep(s: Student, c: Course)
    ensures forall d :: d in Due(MarkNotified(s, c)) <==> d in Due(s) && d != c
    ensures forall d :: NoticeFor(MarkNotified(s, c), d) == NoticeFor(s, d)
  {
    assert FullName(MarkNotified(s, c)) == FullName(s);
  }

  /** Over distinct courses the scan emits at most one notice per course. */
  lemma {:induction false} NotifyCoursesOnePerCourse(s: Student, cs: seq<Course>)
    requires DistinctCourses(cs)
    ensures OneNoticePerCourse(NotifyCourses(s, cs).1)
    decreases |cs|
  {
    if cs != [] {
      var c := cs[0];
      DistinctTail(cs);
      if HasCompleted(s, c, Threshold(c)) && !IsNotifiedFor(s, c) {
        var s1 := MarkNotified(s, c);
        NotifyCoursesOnePerCourse(s1, cs[1..]);
        var rest := NotifyCourses(s1, cs[1..]);
        assert forall m :: m in rest.1 ==> m.course in cs[1..];
        ConsOneNotice(NoticeFor(s, c), rest.1);
      } else {
        NotifyCoursesOnePerCourse(s, cs[1..]);
      }
    }
  }

  /**
   * One student's part of the scan: exactly the due courses are noticed
   * and marked, and afterwards nothing is due any more.
   */
  function NotifyStudent(s: Student): (out: (Student, seq<Notice>))
    ensures out.0 == s.(notified := s.notified + Due(s))
    ensures forall n :: n in out.1 <==> n.course in Due(s) && n == NoticeFor(s, n.course)
    ensures OneNoticePerCourse(out.1)
    ensures |out.1| == |Due(s)|
    ensures Due(out.0) == {}
    ensures forall c :: HasCompleted(out.0, c, Threshold(c)) ==> IsNotifiedFor(out.0, c)
  {
    StudentScanState(s);
    StudentScanNotices(s);
    NotifyCourses(s, AllCourses)
  }

  /** Scanning the four courses marks exactly the due ones, after which nothing is due. */
  lemma StudentScanState(s: Student)
    ensures var s2 := NotifyCourses(s, AllCourses).0;
      && s2 == s.(notified := s.notified + Due(s))
      && Due(s2) == {}
      && forall c :: HasCompleted(s2, c, Threshold(c)) ==> IsNotifiedFor(s2, c)
  {
    DueWithinCatalogue(s);
  }

  /** Scanning the four courses notices each due course exactly once. */
  lemma StudentScanNotices(s: Student)
    ensures var ns := NotifyCourses(s, AllCourses).1;
      && (forall n :: n in ns <==> n.course in Due(s) && n == NoticeFor(s, n.course))
      && OneNoticePerCourse(ns)
      && |ns| == |Due(s)|
  {
    DueWithinCatalogue(s);
    CatalogueDistinct();
    NotifyCoursesOnePerCourse(s, AllCourses);
    NotifyCoursesCount(s, AllCourses);
  }

  lemma CatalogueDistinct()
    ensures DistinctCourses(AllCourses)
  {
  }

  /** Over distinct courses, one notice for each course that is both listed and due. */
  lemma NotifyCoursesCount(s: Student, cs: seq<Course>)
    requires DistinctCourses(cs)
    ensures |NotifyCourses(s, cs).1| == |set c | c in cs && c in Due(s)|
  {
    var ns := NotifyCourses(s, cs).1;
    NotifyCoursesOnePerCourse(s, cs);
    OneNoticePerCourseCount(ns);
    forall c | c in cs && c in Due(s)
      ensures c in (set n | n in ns :: n.course)
    {
      assert NoticeFor(s, c) in ns;
    }
    assert (set n | n in ns :: n.course) == (set c | c in cs && c in Due(s));
  }

  lemma DueWithinCatalogue(s: Student)
    ensures (set c | c in AllCourses && c in Due(s)) == Due(s)
    ensures Due(s) != {} <==> exists c :: c in AllCourses && c in Due(s)
  {
    forall c
      ensures c in AllCourses
    {
      CatalogueComplete(c);
    }
    if Due(s) != {} {
      var c :| c in Due(s);
      assert c in AllCourses;
    }
  }

  /** Two rosters that differ at most in their students' notified sets. */
  ghost predicate SameButNotified(r: Roster, r': Roster)
  {
    && r'.order == r.order && r'.emails == r.emails && r'.nextId == r.nextId
    && r'.byId.Keys == r.byId.Keys
    && forall k :: k in r.byId ==> r'.byId[k] == r.byId[k].(notified := r'.byId[k].notified)
  }

  /** Changing only notified sets keeps the roster invariant. */
  lemma SameButNotifiedKeepsValid(r: Roster, r': Roster)
    requires SameButNotified(r, r')
    ensures Rosters.Valid(r) ==> Rosters.Valid(r')
  {
    if Rosters.Valid(r) {
      forall k | k in r'.byId
        ensures Students.Valid(r'.byId[k])
      {
        var s, s' := r.byId[k], r'.byId[k];
        assert forall c :: s'.Points(c) == s.Points(c) && s'.Submissions(c) == s.Submissions(c);
      }
      forall e | e in r'.emails
        ensures exists k :: k in r'.byId && r'.byId[k].email == e
      {
        var k :| k in r.byId && r.byId[k].email == e;
        assert r'.byId[k].email == e;
      }
    }
  }

  /** The set of listed ids whose student has some notice due. */
  function DueIds(byId: map<int, Student>, ids: seq<int>): set<int>
    requires forall i :: 0 <= i < |ids| ==> ids[i] in byId
  {
    set i | 0 <= i < |ids| && Due(byId[ids[i]]) != {} :: ids[i]
  }

  /**
   * The outer loop over the given ids, in roster order: each listed
   * student's due courses are noticed and marked; the count is the number
   * of students who received at least one notice.
   */
  function ScanIds(r: Roster, ids: seq<int>): (out: (Roster, seq<Notice>, nat))
    requires forall i :: 0 <= i < |ids| ==> ids[i] in r.byId
    requires forall i, j :: 0 <= i < j < |ids| ==> ids[i] != ids[j]
    ensures SameButNotified(r, out.0)
    ensures forall k :: k in r.byId ==>
      out.0.byId[k] == if k in ids then NotifyStudent(r.byId[k]).0 else r.byId[k]
    ensures forall n :: n in out.1 <==>
      exists k :: k in ids && n.course in Due(r.byId[k]) && n == NoticeFor(r.byId[k], n.course)
    ensures out.2 == |DueIds(r.byId, ids)|
    decreases |ids|
  {
    if ids == [] then
      assert DueIds(r.byId, ids) == {};
      (r, [], 0)
    else
      var id := ids[0];
      var step := NotifyStudent(r.byId[id]);
      var r1 := r.(byId := r.byId[id := step.0]);
      TailUntouched(r, ids, r1);
      DistinctIdsTail(ids);
      var rest := ScanIds(r1, ids[1..]);
      var result := (rest.0, step.1 + rest.1, rest.2 + (if |step.1| > 0 then 1 else 0));
      ScanStep(r, ids, r1, rest, result);
      result
  }

  /** One step of the outer loop: the first student, then the rest. */
  lemma ScanStep(r: Roster, ids: seq<int>, r1: Roster, rest: (Roster, seq<Notice>, nat), result: (Roster, seq<Notice>, nat))
    requires |ids| > 0
    requires forall i :: 0 <= i < |ids| ==> ids[i] in r.byId
    requires forall i, j :: 0 <= i < j < |ids| ==> ids[i] != ids[j]
    requires r1 == r.(byId := r.byId[ids[0] := NotifyStudent(r.byId[ids[0]]).0])
    requires SameButNotified(r1, rest.0)
    requires forall k :: k in r1.byId ==>
      rest.0.byId[k] == if k in ids[1..] then NotifyStudent(r1.byId[k]).0 else r1.byId[k]
    requires forall n :: n in rest.1 <==>
      exists k :: k in ids[1..] && n.course in Due(r1.byId[k]) && n == NoticeFor(r1.byId[k], n.course)
    requires forall i :: 0 <= i < |ids[1..]| ==> ids[1..][i] in r1.byId
    requires rest.2 == |DueIds(r1.byId, ids[1..])|
    requires result == (rest.0, NotifyStudent(r.byId[ids[0]]).1 + rest.1,
                        rest.2 + (if |NotifyStudent(r.byId[ids[0]]).1| > 0 then 1 else 0))
    ensures SameButNotified(r, result.0)
    ensures forall k :: k in r.byId ==>
      result.0.byId[k] == if k in ids then NotifyStudent(r.byId[k]).0 else r.byId[k]
    ensures forall n :: n in result.1 <==>
      exists k :: k in ids && n.course in Due(r.byId[k]) && n == NoticeFor(r.byId[k], n.course)
    ensures forall i :: 0 <= i < |ids| ==> ids[i] in r.byId
    ensures result.2 == |DueIds(r.byId, ids)|
  {
    ScanStepState(r, ids, r1, rest.0);
    TailUntouched(r, ids, r1);
    ScanStepNotices(r.byId, ids, r1.byId, NotifyStudent(r.byId[ids[0]]).1, rest.1);
    DueIdsSplit(r.byId, r1.byId, ids);
  }

  /** Marking the first listed student leaves the other listed students as they were. */
  lemma TailUntouched(r: Roster, ids: seq<int>, r1: Roster)
    requires |ids| > 0
    requires forall i :: 0 <= i < |ids| ==> ids[i] in r.byId
    requires forall i, j :: 0 <= i < j < |ids| ==> ids[i] != ids[j]
    requires r1 == r.(byId := r.byId[ids[0] := NotifyStudent(r.byId[ids[0]]).0])
    ensures forall i :: 0 <= i < |ids| ==> ids[i] in r1.byId
    ensures forall i :: 1 <= i < |ids| ==> r1.byId[ids[i]] == r.byId[ids[i]]
    ensures forall i :: 0 <= i < |ids[1..]| ==> ids[1..][i] in r1.byId
  {
    forall i | 1 <= i < |ids|
      ensures r1.byId[ids[i]] == r.byId[ids[i]]
    {
      assert ids[0] != ids[i];
    }
  }

  /** Distinct ids: the rest stays distinct and the first is not among them. */
  lemma DistinctIdsTail(ids: seq<int>)
    requires |ids| > 0
    requires forall i, j :: 0 <= i < j < |ids| ==> ids[i] != ids[j]
    ensures forall i, j :: 0 <= i < j < |ids[1..]| ==> ids[1..][i] != ids[1..][j]
    ensures ids[0] !in ids[1..]
  {
  }

  /** The state part of one step of the outer loop. */
  lemma ScanStepState(r: Roster, ids: seq<int>, r1: Roster, r2: Roster)
    requires |ids| > 0
    requires forall i :: 0 <= i < |ids| ==> ids[i] in r.byId
    requires forall i, j :: 0 <= i < j < |ids| ==> ids[i] != ids[j]
    requires r1 == r.(byId := r.byId[ids[0] := NotifyStudent(r.byId[ids[0]]).0])
    requires SameButNotified(r1, r2)
    requires forall k :: k in r1.byId ==>
      r2.byId[k] == if k in ids[1..] then NotifyStudent(r1.byId[k]).0 else r1.byId[k]
    ensures SameButNotified(r, r2)
    ensures forall k :: k in r.byId ==>
      r2.byId[k] == if k in ids then NotifyStudent(r.byId[k]).0 else r.byId[k]
  {
    assert ids[0] !in ids[1..];
    forall k | k in r.byId
      ensures r2.byId[k] == if k in ids then NotifyStudent(r.byId[k]).0 else r.byId[k]
      ensures r2.byId[k] == r.byId[k].(notified := r2.byId[k].notified)
    {
      assert k in ids <==> k == ids[0] || k in ids[1..];
    }
  }

  /** The notice part of one step of the outer loop. */
  lemma ScanStepNotices(byId: map<int, Student>, ids: seq<int>, byId1: map<int, Student>, n1: seq<Notice>, n2: seq<Notice>)
    requires |ids| > 0 && ids[0] in byId
    requires forall i :: 1 <= i < |ids| ==> ids[i] in byId && ids[i] in byId1 && byId1[ids[i]] == byId[ids[i]]
    requires forall n :: n in n1 <==> n.course in Due(byId[ids[0]]) && n == NoticeFor(byId[ids[0]], n.course)
    requires forall n :: n in n2 <==>
      exists k :: k in ids[1..] && n.course in Due(byId1[k]) && n == NoticeFor(byId1[k], n.course)
    ensures forall n :: n in n1 + n2 <==>
      exists k :: k in ids && n.course in Due(byId[k]) && n == NoticeFor(byId[k], n.course)
  {
    ConsOwed(byId, ids, byId1, n1, n2, (s: Student, n: Notice) => n.course in Due(s) && n == NoticeFor(s, n.course));
  }

  /**
   * The items owed to a list of keys are those owed to its first key plus
   * those owed to the rest, when the rest is read from a map that agrees
   * with the original on every later key.
   */
  lemma ConsOwed<S, N>(byId: map<int, S>, ids: seq<int>, byId1: map<int, S>, n1: seq<N>, n2: seq<N>, owes: (S, N) -> bool)
    requires |ids| > 0 && ids[0] in byId
    requires forall i :: 1 <= i < |ids| ==> ids[i] in byId && ids[i] in byId1 && byId1[ids[i]] == byId[ids[i]]
    requires forall n :: n in n1 <==> owes(byId[ids[0]], n)
    requires forall n :: n in n2 <==> exists k :: k in ids[1..] && owes(byId1[k], n)
    ensures forall n :: n in n1 + n2 <==> exists k :: k in ids && owes(byId[k], n)
  {
    forall n
      ensures n in n1 + n2 <==> exists k :: k in ids && owes(byId[k], n)
    {
      if n in n1 {
        assert ids[0] in ids;
      }
      if n in n2 {
        var k :| k in ids[1..] && owes(byId1[k], n);
        var i :| 0 <= i < |ids[1..]| && ids[1..][i] == k;
        assert ids[i + 1] == k;
      }
      if exists k :: k in ids && owes(byId[k], n) {
        var k :| k in ids && owes(byId[k], n);
        var i :| 0 <= i < |ids| && ids[i] == k;
        if i > 0 {
          assert ids[1..][i - 1] == k;
        }
      }
    }
  }

  lemma DueIdsSplit(byId: map<int, Student>, byId1: map<int, Student>, ids: seq<int>)
    requires |ids| > 0
    requires forall i :: 0 <= i < |ids| ==> ids[i] in byId && ids[i] in byId1
    requires forall i, j :: 0 <= i < j < |ids| ==> ids[i] != ids[j]
    requires forall i :: 1 <= i < |ids| ==> byId1[ids[i]] == byId[ids[i]]
    ensures |DueIds(byId, ids)| == |DueIds(byId1, ids[1..])| + (if Due(byId[ids[0]]) != {} then 1 else 0)
  {
    var rest := DueIds(byId1, ids[1..]);
    var head := if Due(byId[ids[0]]) != {} then {ids[0]} else {};
    assert ids[0] !in rest;
    forall x
      ensures x in DueIds(byId, ids) <==> x in head || x in rest
    {
      if x in DueIds(byId, ids) {
        var i :| 0 <= i < |ids| && Due(byId[ids[i]]) != {} && ids[i] == x;
        if i > 0 {
          assert ids[1..][i - 1] == x;
        }
      }
      if x in rest {
        var i :| 0 <= i < |ids[1..]| && Due(byId1[ids[1..][i]]) != {} && ids[1..][i] == x;
        assert ids[i + 1] == x;
      }
    }
    assert DueIds(byId, ids) == head + rest;
  }

  /** No notice is emitted twice. */
  predicate DistinctNotices(ns: seq<Notice>)
  {
    forall i, j :: 0 <= i < j < |ns| ==> ns[i] != ns[j]
  }

  /** Notices of distinct students, each without repeats, joined without repeats. */
  lemma ConcatDistinct(a: seq<Notice>, b: seq<Notice>)
    requires DistinctNotices(a) && DistinctNotices(b)
    requires forall n :: n in a ==> n !in b
    ensures DistinctNotices(a + b)
  {
    var ab := a + b;
    forall i, j | 0 <= i < j < |ab|
      ensures ab[i] != ab[j]
    {
      if j >= |a| {
        assert ab[j] == b[j - |a|];
        if i < |a| {
          assert ab[i] == a[i];
          assert a[i] in a;
        } else {
          assert ab[i] == b[i - |a|];
        }
      }
    }
  }

  /**
   * Over distinct ids whose students carry their own ids, the scan emits
   * no notice twice: one student's notices name different courses, and
   * different students' notices carry different ids.
   */
  lemma {:induction false} ScanNoticesDistinct(r: Roster, ids: seq<int>)
    requires forall i :: 0 <= i < |ids| ==> ids[i] in r.byId
    requires forall i, j :: 0 <= i < j < |ids| ==> ids[i] != ids[j]
    requires forall k :: k in r.byId ==> r.byId[k].id == k
    ensures DistinctNotices(ScanIds(r, ids).1)
    decreases |ids|
  {
    if ids != [] {
      var id := ids[0];
      var step := NotifyStudent(r.byId[id]);
      var r1 := r.(byId := r.byId[id := step.0]);
      TailUntouched(r, ids, r1);
      DistinctIdsTail(ids);
      ScanNoticesDistinct(r1, ids[1..]);
      var rest := ScanIds(r1, ids[1..]);
      assert ScanIds(r, ids).1 == step.1 + rest.1;
      NoticeIdsListed(r1, ids[1..], rest.1);
      HeadNoticesApart(id, ids[1..], step.1, rest.1);
    }
  }

  /** The first student's notices, then notices to other ids, repeat nothing. */
  lemma HeadNoticesApart(id: int, tail: seq<int>, n1: seq<Notice>, n2: seq<Notice>)
    requires id !in tail
    requires OneNoticePerCourse(n1) && forall n :: n in n1 ==> n.id == id
    requires DistinctNotices(n2) && forall n :: n in n2 ==> n.id in tail
    ensures DistinctNotices(n1 + n2)
  {
    ConcatDistinct(n1, n2);
  }

  /** Every notice of the scan goes to one of the listed ids. */
  lemma NoticeIdsListed(r: Roster, ids: seq<int>, ns: seq<Notice>)
    requires forall k :: k in r.byId ==> r.byId[k].id == k
    requires forall n :: n in ns ==>
      exists k :: k in ids && k in r.byId && n.course in Due(r.byId[k]) && n == NoticeFor(r.byId[k], n.course)
    ensures forall n :: n in ns ==> n.id in ids
  {
    forall n | n in ns
      ensures n.id in ids
    {
      var k :| k in ids && k in r.byId && n.course in Due(r.byId[k]) && n == NoticeFor(r.byId[k], n.course);
    }
  }

  datatype ScanResult = ScanResult(roster: Roster, notices: seq<Notice>, notifiedCount: nat)

  /** The insertion order of a valid roster lists every stored id once. */
  ghost predicate OrderIsKeys(r: Roster)
  {
    && (forall i :: 0 <= i < |r.order| ==> r.order[i] in r.byId)
    && (forall i, j :: 0 <= i < j < |r.order| ==> r.order[i] != r.order[j])
    && (forall k :: k in r.byId ==> k in r.order)
  }

  lemma ValidOrderIsKeys(r: Roster)
    requires Rosters.Valid(r)
    ensures OrderIsKeys(r)
    ensures forall k :: k in r.byId ==> r.byId[k].id == k
  {
    OrderCoversKeys(r);
  }

  lemma ScanStates(r: Roster)
    requires OrderIsKeys(r)
    ensures SameButNotified(r, ScanIds(r, r.order).0)
    ensures forall k :: k in r.byId ==> ScanIds(r, r.order).0.byId[k] == NotifyStudent(r.byId[k]).0
  {
  }

  /** The notices are exactly the ones due to the stored students. */
  ghost predicate NoticesOfDue(byId: map<int, Student>, ns: seq<Notice>)
  {
    forall n :: n in ns <==>
      exists k :: k in byId && n.course in Due(byId[k]) && n == NoticeFor(byId[k], n.course)
  }

  lemma ScanNotices(r: Roster)
    requires OrderIsKeys(r)
    ensures NoticesOfDue(r.byId, ScanIds(r, r.order).1)
  {
  }

  lemma ScanCount(r: Roster)
    requires OrderIsKeys(r)
    ensures ScanIds(r, r.order).2 == |set k | k in r.byId && Due(r.byId[k]) != {}|
  {
    forall k | k in r.byId && Due(r.byId[k]) != {}
      ensures k in DueIds(r.byId, r.order)
    {
      var i :| 0 <= i < |r.order| && r.order[i] == k;
    }
    assert DueIds(r.byId, r.order) == set k | k in r.byId && Due(r.byId[k]) != {};
  }

  /**
   * `notifyStudents`: scans every student in insertion order; afterwards
   * every completed course of every student is marked, no marking was
   * lost, and the count is the number of students noticed in this scan.
   */
  function NotifyStudents(r: Roster): (out: ScanResult)
    requires Rosters.Valid(r)
    ensures Rosters.Valid(out.roster)
    ensures SameButNotified(r, out.roster)
    ensures forall k :: k in r.byId ==> out.roster.byId[k] == NotifyStudent(r.byId[k]).0
    ensures forall k :: k in r.byId ==>
      && r.byId[k].notified <= out.roster.byId[k].notified
      && forall c :: HasCompleted(out.roster.byId[k], c, Threshold(c)) ==> IsNotifiedFor(out.roster.byId[k], c)
    ensures NoticesOfDue(r.byId, out.notices)
    ensures out.notifiedCount == |set k | k in r.byId && Due(r.byId[k]) != {}|
    ensures DistinctNotices(out.notices)
  {
    ValidOrderIsKeys(r);
    ScanNoticesDistinct(r, r.order);
    ScanStates(r);
    ScanNotices(r);
    ScanCount(r);
    var res := ScanIds(r, r.order);
    SameButNotifiedKeepsValid(r, res.0);
    ScanResult(res.0, res.1, res.2)
  }

  /**
   * A course once notified is never due again, whatever points lines
   * follow, so no later scan sends its notice a second time.
   */
  lemma NotifiedStaysQuiet(s: Student, history: seq<Entry>, c: Course)
    requires IsNotifiedFor(s, c)
    ensures c !in Due(ApplyAll(s, history))
  {
    HistoryTotals(s, history, c);
  }

  /** A fresh student given exactly every threshold in one points line has every course due. */
  lemma FullMarksDue(id: int, first: string, last: string, email: string)
    ensures forall c :: c in Due(UpdatePoints(NewStudent(id, first, last, email), Entry(600, 400, 480, 550)))
  {
    var s := UpdatePoints(NewStudent(id, first, last, email), Entry(600, 400, 480, 550));
    forall c
      ensures c in Due(s)
    {
      assert s.Points(c) == Threshold(c);
    }
  }

  /**
   * A roster of one student with every course due: one notice per course,
   * all addressed to that student, and a count of one.
   */
  lemma SingleStudentScan(r: Roster, k: int)
    requires Rosters.Valid(r)
    requires r.byId.Keys == {k}
    requires forall c :: c in Due(r.byId[k])
    ensures var out := NotifyStudents(r);
      && (forall c :: NoticeFor(r.byId[k], c) in out.notices)
      && (forall n :: n in out.notices ==> n == NoticeFor(r.byId[k], n.course))
      && out.notifiedCount == 1
      && |out.notices| == 4
  {
    var out := NotifyStudents(r);
    SingleStudentDue(r, k);
    SingleStudentNotices(r, k, out.notices);
  }

  /** The scan's notices for a roster of one student with every course due. */
  lemma SingleStudentNotices(r: Roster, k: int, ns: seq<Notice>)
    requires r.byId.Keys == {k}
    requires forall c :: c in Due(r.byId[k])
    requires NoticesOfDue(r.byId, ns)
    requires DistinctNotices(ns)
    ensures forall c :: NoticeFor(r.byId[k], c) in ns
    ensures forall n :: n in ns ==> n == NoticeFor(r.byId[k], n.course)
    ensures |ns| == 4
  {
    forall n | n in ns
      ensures n == NoticeFor(r.byId[k], n.course)
    {
      var j :| j in r.byId && n.course in Due(r.byId[j]) && n == NoticeFor(r.byId[j], n.course);
      assert j == k;
    }
    forall c
      ensures NoticeFor(r.byId[k], c) in ns
    {
      var n := NoticeFor(r.byId[k], c);
      assert k in r.byId && n.course in Due(r.byId[k]) && n == NoticeFor(r.byId[k], n.course);
    }
    SameStudentNoticeCount(r.byId[k], ns);
  }

  /** With one student, who has something due, exactly that student has notices due. */
  lemma SingleStudentDue(r: Roster, k: int)
    requires r.byId.Keys == {k}
    requires forall c :: c in Due(r.byId[k])
    ensures |set j | j in r.byId && Due(r.byId[j]) != {}| == 1
  {
    var due := set j | j in r.byId && Due(r.byId[j]) != {};
    assert Java in Due(r.byId[k]);
    assert k in due;
    assert forall j :: j in due ==> j == k;
    assert due == {k};
  }

  /** Distinct notices to one student for every course number one per course. */
  lemma SameStudentNoticeCount(s: Student, ns: seq<Notice>)
    requires DistinctNotices(ns)
    requires forall n :: n in ns ==> n == NoticeFor(s, n.course)
    requires forall c :: NoticeFor(s, c) in ns
    ensures |ns| == 4
  {
    assert OneNoticePerCourse(ns) by {
      forall i, j | 0 <= i < j < |ns|
        ensures ns[i].course != ns[j].course
      {
        assert ns[i] == NoticeFor(s, ns[i].course);
        assert ns[j] == NoticeFor(s, ns[j].course);
      }
    }
    OneNoticePerCourseCount(ns);
    var courses := set n | n in ns :: n.course;
    forall c
      ensures c in courses && c in CourseSet
    {
      assert NoticeFor(s, c) in ns;
      CatalogueComplete(c);
    }
    assert courses == CourseSet;
    CatalogueComplete(Java);
  }

  /** A scan of a roster where nothing is due sends nothing. */
  lemma QuietScan(r: Roster)
    requires Rosters.Valid(r)
    requires forall k :: k in r.byId ==> Due(r.byId[k]) == {}
    ensures NotifyStudents(r).notices == []
    ensures NotifyStudents(r).notifiedCount == 0
  {
    var out := NotifyStudents(r);
    assert (set k | k in r.byId && Due(r.byId[k]) != {}) == {};
    HeadIsMember(out.notices);
  }

  /**
   * A non-empty sequence holds its first element; stated apart so that the
   * scan with nothing due never indexes a sequence it knows to be empty.
   */
  lemma HeadIsMember<T>(s: seq<T>)
    ensures s == [] || s[0] in s
  {
  }

  /** An immediate second scan finds nothing to send and reports zero students. */
  lemma RescanSilent(r: Roster)
    requires Rosters.Valid(r)
    ensures NotifyStudents(NotifyStudents(r).roster).notices == []
    ensures NotifyStudents(NotifyStudents(r).roster).notifiedCount == 0
  {
    var r1 := NotifyStudents(r).roster;
    QuietScan(r1);
  }
}

=== FILE: ranking.dfy ===
/**
 * The ranking policy of the statistics screen: for a metric and a
 * direction, which courses are named "most"/"least" (or "highest"/"lowest",
 * "easiest"/"hardest"), and when the answer is "n/a".
 */
module Ranking {
  import opened Courses
  import opened Statistics

  /** The three metrics the statistics screen ranks courses by. */
  datatype Metric = Popularity | Activity | Difficulty

  /**
   * The key a metric ranks by: the enrolled count, the submissions, or the
   * average score; never negative.
   */
  function Value(info: CourseInfo, m: Metric): (v: real)
    ensures v >= 0.0
    ensures m == Popularity ==> v == info.enrolledCount as real
    ensures m == Activity ==> v == info.submissions as real
    ensures m == Difficulty ==> v == AverageScore(info)
  {
    match m
    case Popularity => info.enrolledCount as real
    case Activity => info.submissions as real
    case Difficulty => AverageScore(info)
  }

  /** A ranking line: "n/a", or a set of course names. */
  datatype Ranked = NotAvailable | Named(courses: set<Course>)

  /** `v` is the best value for the direction: taken by some entry, and no entry beats it. */
  predicate IsExtremum(list: seq<CourseInfo>, m: Metric, max: bool, v: real)
  {
    && (exists x :: x in list && Value(x, m) == v)
    && (forall x :: x in list ==> if max then Value(x, m) <= v else v <= Value(x, m))
  }

  predicate AllEqual(list: seq<CourseInfo>, m: Metric)
  {
    forall x, y :: x in list && y in list ==> Value(x, m) == Value(y, m)
  }

  /** The best value in the direction, as the first entry after sorting. */
  function Best(list: seq<CourseInfo>, m: Metric, max: bool): (v: real)
    requires |list| > 0
    ensures IsExtremum(list, m, max, v)
  {
    if |list| == 1 then Value(list[0], m)
    else
      var rest := Best(list[1..], m, max);
      var head := Value(list[0], m);
      assert list == [list[0]] + list[1..];
      if max then (if head >= rest then head else rest)
      else (if head <= rest then head else rest)
  }

  lemma ExtremumUnique(list: seq<CourseInfo>, m: Metric, max: bool, v: real, w: real)
    requires IsExtremum(list, m, max, v) && IsExtremum(list, m, max, w)
    ensures v == w
  {
    var x :| x in list && Value(x, m) == v;
    var y :| y in list && Value(y, m) == w;
  }

  /**
   * `printCategory`: the courses holding the best value, except that the
   * answer is "n/a" when there is nothing to rank, when the best value is
   * zero, or when every course ties and the direction is "least"; when
   * every course ties on a non-zero value, "most" names them all.
   */
  function PrintCategory(list: seq<CourseInfo>, m: Metric, max: bool): (r: Ranked)
    ensures r == NotAvailable <==>
      || |list| == 0
      || (forall v :: IsExtremum(list, m, max, v) ==> v == 0.0)
      || (AllEqual(list, m) && !max)
    ensures r.Named? ==> r.courses != {}
    ensures r.Named? ==> forall c ::
      c in r.courses <==> exists x :: x in list && x.course == c && IsExtremum(list, m, max, Value(x, m))
  {
    if |list| == 0 then NotAvailable
    else
      var best := Best(list, m, max);
      var worst := Best(list, m, !max);
      ExtremaMeetIffAllEqual(list, m, max, best, worst);
      assert forall v :: IsExtremum(list, m, max, v) ==> v == best by {
        forall v | IsExtremum(list, m, max, v)
          ensures v == best
        {
          ExtremumUnique(list, m, max, v, best);
        }
      }
      if best == worst then
        if best == 0.0 then NotAvailable
        else if max then
          var all := set x | x in list :: x.course;
          assert list[0].course in all;
          Named(all)
        else NotAvailable
      else if best == 0.0 then NotAvailable
      else
        var top := set x | x in list && Value(x, m) == best :: x.course;
        var x :| x in list && Value(x, m) == best;
        assert x.course in top;
        Named(top)
  }

  lemma ExtremaMeetIffAllEqual(list: seq<CourseInfo>, m: Metric, max: bool, best: real, worst: real)
    requires IsExtremum(list, m, max, best) && IsExtremum(list, m, !max, worst)
    ensures best == worst <==> AllEqual(list, m)
  {
    if AllEqual(list, m) {
      var x :| x in list && Value(x, m) == best;
      var y :| y in list && Value(y, m) == worst;
    }
  }

  /**
   * The intended asymmetry: when every course ties on a non-zero value,
   * "most" names every course and "least" answers "n/a".
   */
  lemma TieAsymmetry(list: seq<CourseInfo>, m: Metric)
    requires |list| > 0 && AllEqual(list, m) && Value(list[0], m) != 0.0
    ensures PrintCategory(list, m, true) == Named(set x | x in list :: x.course)
    ensures PrintCategory(list, m, false) == NotAvailable
  {
    var v := Value(list[0], m);
    assert IsExtremum(list, m, true, v);
    var r := PrintCategory(list, m, true);
    assert r.Named?;
    forall c | c in r.courses
      ensures c in (set x | x in list :: x.course)
    {
      var x :| x in list && x.course == c && IsExtremum(list, m, true, Value(x, m));
    }
    forall c | c in (set x | x in list :: x.course)
      ensures c in r.courses
    {
      var x :| x in list && x.course == c;
      assert Value(x, m) == v;
    }
  }

  /** When every course scores zero, both directions answer "n/a". */
  lemma AllZeroNotAvailable(list: seq<CourseInfo>, m: Metric, max: bool)
    requires forall x :: x in list ==> Value(x, m) == 0.0
    ensures PrintCategory(list, m, max) == NotAvailable
  {
    if |list| > 0 {
      forall v | IsExtremum(list, m, max, v)
        ensures v == 0.0
      {
        var x :| x in list && Value(x, m) == v;
      }
    }
  }

  /** Each course has at most one record in the list, as in the statistics map. */
  predicate UniqueCourses(list: seq<CourseInfo>)
  {
    forall x, y :: x in list && y in list && x.course == y.course ==> x == y
  }

  /**
   * A course is never named both "most" and "least" on the same metric:
   * when both lines name courses, the two sets are disjoint.
   */
  lemma MostAndLeastDisjoint(list: seq<CourseInfo>, m: Metric)
    requires UniqueCourses(list)
    requires PrintCategory(list, m, true).Named? && PrintCategory(list, m, false).Named?
    ensures PrintCategory(list, m, true).courses !! PrintCategory(list, m, false).courses
  {
    var most := PrintCategory(list, m, true).courses;
    var least := PrintCategory(list, m, false).courses;
    var hi := Best(list, m, true);
    var lo := Best(list, m, false);
    ExtremaMeetIffAllEqual(list, m, true, hi, lo);
    assert hi != lo;
    forall c | c in most
      ensures c !in least
    {
      var x :| x in list && x.course == c && IsExtremum(list, m, true, Value(x, m));
      ExtremumUnique(list, m, true, Value(x, m), hi);
    }
  }

  lemma SameEntriesSameExtremum(a: seq<CourseInfo>, b: seq<CourseInfo>, m: Metric, max: bool, v: real)
    requires forall x :: x in a <==> x in b
    ensures IsExtremum(a, m, max, v) <==> IsExtremum(b, m, max, v)
  {
    if IsExtremum(a, m, max, v) {
      var x :| x in a && Value(x, m) == v;
      assert x in b;
    }
    if IsExtremum(b, m, max, v) {
      var x :| x in b && Value(x, m) == v;
      assert x in a;
    }
  }

  /**
   * The answer depends only on which records are present, not on the
   * order the map hands them out in.
   */
  lemma OrderIndependent(a: seq<CourseInfo>, b: seq<CourseInfo>, m: Metric, max: bool)
    requires forall x :: x in a <==> x in b
    ensures PrintCategory(a, m, max) == PrintCategory(b, m, max)
  {
    SameAvailability(a, b, m, max);
    if PrintCategory(a, m, max).Named? {
      SameNamedCourses(a, b, m, max);
    }
  }

  lemma SameAvailability(a: seq<CourseInfo>, b: seq<CourseInfo>, m: Metric, max: bool)
    requires forall x :: x in a <==> x in b
    ensures PrintCategory(a, m, max).Named? <==> PrintCategory(b, m, max).Named?
  {
    assert |a| == 0 <==> |b| == 0 by {
      if |a| > 0 { assert a[0] in b; }
      if |b| > 0 { assert b[0] in a; }
    }
    forall v
      ensures IsExtremum(a, m, max, v) <==> IsExtremum(b, m, max, v)
    {
      SameEntriesSameExtremum(a, b, m, max, v);
    }
    assert AllEqual(a, m) <==> AllEqual(b, m);
  }

  lemma SameNamedCourses(a: seq<CourseInfo>, b: seq<CourseInfo>, m: Metric, max: bool)
    requires forall x :: x in a <==> x in b
    requires PrintCategory(a, m, max).Named? && PrintCategory(b, m, max).Named?
    ensures PrintCategory(a, m, max).courses == PrintCategory(b, m, max).courses
  {
    NamedSubset(a, b, m, max);
    NamedSubset(b, a, m, max);
  }

  lemma NamedSubset(a: seq<CourseInfo>, b: seq<CourseInfo>, m: Metric, max: bool)
    requires forall x :: x in a <==> x in b
    requires PrintCategory(a, m, max).Named? && PrintCategory(b, m, max).Named?
    ensures PrintCategory(a, m, max).courses <= PrintCategory(b, m, max).courses
  {
    forall c | c in PrintCategory(a, m, max).courses
      ensures c in PrintCategory(b, m, max).courses
    {
      NamedInBoth(a, b, m, max, c);
    }
  }

  /** A course named from one list is named from any list with the same records. */
  lemma NamedInBoth(a: seq<CourseInfo>, b: seq<CourseInfo>, m: Metric, max: bool, c: Course)
    requires forall x :: x in a <==> x in b
    requires PrintCategory(a, m, max).Named? && PrintCategory(b, m, max).Named?
    requires c in PrintCategory(a, m, max).courses
    ensures c in PrintCategory(b, m, max).courses
  {
    var x :| x in a && x.course == c && IsExtremum(a, m, max, Value(x, m));
    SameEntriesSameExtremum(a, b, m, max, Value(x, m));
    assert x in b;
  }

  /** The six lines of the statistics screen. */
  datatype Summary = Summary(
    mostPopular: Ranked, leastPopular: Ranked,
    highestActivity: Ranked, lowestActivity: Ranked,
    easiestCourse: Ranked, hardestCourse: Ranked)

  /** The records in the order the statistics map hands them out; one per course. */
  function StatsList(stats: map<Course, CourseInfo>): (list: seq<CourseInfo>)
    requires stats.Keys == CourseSet
    ensures forall x :: x in list <==> x in stats.Values
  {
    var list := [stats[Java], stats[DSA], stats[Databases], stats[Spring]];
    assert forall x :: x in stats.Values ==> x in list by {
      forall x | x in stats.Values
        ensures x in list
      {
        var c :| c in stats && stats[c] == x;
      }
    }
    list
  }

  /** The six ranking lines over one enumeration of the records. */
  function Summarize(list: seq<CourseInfo>): Summary
  {
    Summary(
      PrintCategory(list, Popularity, true), PrintCategory(list, Popularity, false),
      PrintCategory(list, Activity, true), PrintCategory(list, Activity, false),
      PrintCategory(list, Difficulty, true), PrintCategory(list, Difficulty, false))
  }

  /** `list` holds exactly the records of the statistics map, in some order. */
  ghost predicate Enumerates(list: seq<CourseInfo>, stats: map<Course, CourseInfo>)
  {
    forall x :: x in list <==> x in stats.Values
  }

  /** Two enumerations of the same records give the same six lines. */
  lemma SummarizeOrderIndependent(a: seq<CourseInfo>, b: seq<CourseInfo>)
    requires forall x :: x in a <==> x in b
    ensures Summarize(a) == Summarize(b)
  {
    OrderIndependent(a, b, Popularity, true);
    OrderIndependent(a, b, Popularity, false);
    OrderIndependent(a, b, Activity, true);
    OrderIndependent(a, b, Activity, false);
    OrderIndependent(a, b, Difficulty, true);
    OrderIndependent(a, b, Difficulty, false);
  }

  /**
   * `showStatistics`: the six ranking lines over the statistics map; they
   * are the lines over whatever order the map hands its records out in.
   */
  function ShowStatistics(stats: map<Course, CourseInfo>): (sum: Summary)
    requires stats.Keys == CourseSet
    ensures forall list :: Enumerates(list, stats) ==> sum == Summarize(list)
  {
    var list := StatsList(stats);
    assert forall other :: Enumerates(other, stats) ==> Summarize(other) == Summarize(list) by {
      forall other | Enumerates(other, stats)
        ensures Summarize(other) == Summarize(list)
      {
        SummarizeOrderIndependent(other, list);
      }
    }
    Summarize(list)
  }

  /**
   * On the statistics screen no course is named on both lines of the same
   * metric, because the map holds one record per course.
   */
  lemma ScreenLinesDisjoint(stats: map<Course, CourseInfo>)
    requires stats.Keys == CourseSet
    requires forall c :: c in stats ==> stats[c].course == c
    ensures var sum := ShowStatistics(stats);
      && (sum.mostPopular.Named? && sum.leastPopular.Named? ==> sum.mostPopular.courses !! sum.leastPopular.courses)
      && (sum.highestActivity.Named? && sum.lowestActivity.Named? ==> sum.highestActivity.courses !! sum.lowestActivity.courses)
      && (sum.easiestCourse.Named? && sum.hardestCourse.Named? ==> sum.easiestCourse.courses !! sum.hardestCourse.courses)
  {
    var list := StatsList(stats);
    assert UniqueCourses(list) by {
      forall x, y | x in list && y in list && x.course == y.course
        ensures x == y
      {
        var a :| a in stats && stats[a] == x;
        var b :| b in stats && stats[b] == y;
      }
    }
    forall m: Metric | PrintCategory(list, m, true).Named? && PrintCategory(list, m, false).Named?
      ensures PrintCategory(list, m, true).courses !! PrintCategory(list, m, false).courses
    {
      MostAndLeastDisjoint(list, m);
    }
  }

  /** With no students every line of the statistics screen reads "n/a". */
  lemma EmptyRosterSummary()
    ensures ShowStatistics(StatsOf([])) == Summary(NotAvailable, NotAvailable, NotAvailable,
                                                  NotAvailable, NotAvailable, NotAvailable)
  {
    var stats := StatsOf([]);
    var list := StatsList(stats);
    forall m: Metric, x | x in list
      ensures Value(x, m) == 0.0
    {
      var c :| c in stats && stats[c] == x;
    }
    forall m: Metric, max: bool
      ensures PrintCategory(list, m, max) == NotAvailable
    {
      AllZeroNotAvailable(list, m, max);
    }
  }
}

=== FILE: results.dfy ===
/** Small failure-carrying datatypes used by the tracker's operations. */
module Results {

  /** An optional value: a lookup that may find nothing. */
  datatype Option<+T> = None | Some(value: T)

  /** Either a value or the error the tracker reports instead. */
  datatype Result<+T, +E> = Ok(value: T) | Err(error: E)
}

=== FILE: roster.dfy ===
/**
 * The roster: students by id in insertion order, the set of taken emails
 * that mirrors them, the id counter, and the shell commands that change or
 * read them (adding students, listing ids, recording points, finding a
 * student).
 */
module Rosters {
  import opened Results
  import opened Courses
  import opened Students
  import opened Credentials

  /** The first id the counter hands out. */
  const FirstId: int := 10000

  datatype Roster = Roster(order: seq<int>, byId: map<int, Student>, emails: set<string>, nextId: int)

  /**
   * The roster invariant: ids are handed out consecutively from `FirstId`
   * in insertion order, each stored record carries its own id and keeps the
   * record invariant, emails are unique, and the email set is exactly the
   * set of stored students' emails.
   */
  ghost predicate Valid(r: Roster)
  {
    && r.nextId == FirstId + |r.order|
    && (forall i :: 0 <= i < |r.order| ==> r.order[i] == FirstId + i)
    && (forall id :: id in r.byId <==> FirstId <= id < r.nextId)
    && (forall id :: id in r.byId ==> r.byId[id].id == id && Students.Valid(r.byId[id]))
    && (forall e :: e in r.emails <==> exists id :: id in r.byId && r.byId[id].email == e)
    && (forall a, b :: a in r.byId && b in r.byId && a != b ==> r.byId[a].email != r.byId[b].email)
    && |r.byId| == |r.order| && |r.emails| == |r.order|
  }

  function EmptyRoster(): (r: Roster)
    ensures Valid(r) && r.order == [] && r.nextId == FirstId
  {
    Roster([], map[], {}, FirstId)
  }

  /** The stored students in insertion order (`values()` of the linked map). */
  function Values(r: Roster): (ss: seq<Student>)
    requires forall i :: 0 <= i < |r.order| ==> r.order[i] in r.byId
    ensures |ss| == |r.order|
    ensures forall i :: 0 <= i < |ss| ==> ss[i] == r.byId[r.order[i]]
  {
    seq(|r.order|, i requires 0 <= i < |r.order| => r.byId[r.order[i]])
  }

  datatype AddError = EmailTaken

  /**
   * Adds a student with already validated credentials: refused when the
   * email is taken, otherwise stored under the next id, which then moves on.
   */
  function AddStudent(r: Roster, first: string, last: string, email: string): (out: (Roster, Result<int, AddError>))
    ensures email in r.emails ==> out.0 == r && out.1 == Err(EmailTaken)
    ensures email !in r.emails ==>
      && out.1 == Ok(r.nextId)
      && out.0.order == r.order + [r.nextId]
      && out.0.nextId == r.nextId + 1
      && out.0.emails == r.emails + {email}
      && out.0.byId.Keys == r.byId.Keys + {r.nextId}
      && out.0.byId == r.byId[r.nextId := NewStudent(r.nextId, first, last, email)]
    ensures email !in r.emails && Valid(r) ==>
      && r.nextId !in r.byId
      && (forall id :: id in r.byId ==> out.0.byId[id] == r.byId[id])
      && out.0.byId[r.nextId] == NewStudent(r.nextId, first, last, email)
      && |out.0.emails| == |r.emails| + 1 && |out.0.byId| == |r.byId| + 1
    ensures Valid(r) ==> Valid(out.0)
  {
    if email in r.emails then (r, Err(EmailTaken))
    else
      var s := NewStudent(r.nextId, first, last, email);
      var r' := Roster(r.order + [r.nextId], r.byId[r.nextId := s], r.emails + {email}, r.nextId + 1);
      AddKeepsValid(r, r', s);
      (r', Ok(r.nextId))
  }

  lemma AddKeepsValid(r: Roster, r': Roster, s: Student)
    requires s.email !in r.emails
    requires s == NewStudent(r.nextId, s.firstName, s.lastName, s.email)
    requires r' == Roster(r.order + [r.nextId], r.byId[r.nextId := s], r.emails + {s.email}, r.nextId + 1)
    ensures Valid(r) ==> Valid(r')
  {
    if Valid(r) {
      AddKeepsIds(r, r', s);
      AddMirrorsEmails(r, r', s);
      AddKeepsEmailsUnique(r, r', s);
    }
  }

  lemma AddKeepsIds(r: Roster, r': Roster, s: Student)
    requires Valid(r) && s.email !in r.emails
    requires s == NewStudent(r.nextId, s.firstName, s.lastName, s.email)
    requires r' == Roster(r.order + [r.nextId], r.byId[r.nextId := s], r.emails + {s.email}, r.nextId + 1)
    ensures r'.nextId == FirstId + |r'.order|
    ensures forall i :: 0 <= i < |r'.order| ==> r'.order[i] == FirstId + i
    ensures forall id :: id in r'.byId <==> FirstId <= id < r'.nextId
    ensures forall id :: id in r'.byId ==> r'.byId[id].id == id && Students.Valid(r'.byId[id])
    ensures |r'.byId| == |r'.order| && |r'.emails| == |r'.order|
  {
    assert r.nextId !in r.byId;
  }

  lemma AddMirrorsEmails(r: Roster, r': Roster, s: Student)
    requires Valid(r) && s.email !in r.emails
    requires r' == Roster(r.order + [r.nextId], r.byId[r.nextId := s], r.emails + {s.email}, r.nextId + 1)
    ensures forall e :: e in r'.emails <==> exists id :: id in r'.byId && r'.byId[id].email == e
  {
    assert r.nextId !in r.byId;
    forall e
      ensures e in r'.emails <==> exists id :: id in r'.byId && r'.byId[id].email == e
    {
      if e in r'.emails && e != s.email {
        var id :| id in r.byId && r.byId[id].email == e;
        assert id in r'.byId && r'.byId[id].email == e;
      }
      if e == s.email {
        assert r'.byId[r.nextId].email == e;
      }
    }
  }

  lemma AddKeepsEmailsUnique(r: Roster, r': Roster, s: Student)
    requires Valid(r) && s.email !in r.emails
    requires r' == Roster(r.order + [r.nextId], r.byId[r.nextId := s], r.emails + {s.email}, r.nextId + 1)
    ensures forall a, b :: a in r'.byId && b in r'.byId && a != b ==> r'.byId[a].email != r'.byId[b].email
  {
    forall a, b | a in r'.byId && b in r'.byId && a != b
      ensures r'.byId[a].email != r'.byId[b].email
    {
      if a == r.nextId {
        assert r.byId[b].email in r.emails;
      } else if b == r.nextId {
        assert r.byId[a].email in r.emails;
      }
    }
  }

  /** The regular-expression checks of the shell, which this model does not open up. */
  datatype Validators = Validators(firstName: string -> bool, lastName: string -> bool, email: string -> bool)

  /** What the shell reports for one credentials line. */
  datatype AddReply =
    | Added(id: int)
    | IncorrectCredentials
    | IncorrectFirstName
    | IncorrectLastName
    | IncorrectEmail
    | EmailAlreadyTaken

  /** The line splits and its first name, last name and email pass their checks. */
  predicate Accepted(v: Validators, line: string)
  {
    var p := ParseCredentials(line);
    p.Ok? && v.firstName(p.value.firstName) && v.lastName(p.value.lastName) && v.email(p.value.email)
  }

  /**
   * One credentials line of the "add students" command: split, then the
   * first name, last name and email checks in that order, then the email
   * uniqueness check; only a line passing all of them adds a student.
   */
  function AddLine(r: Roster, v: Validators, line: string): (out: (Roster, AddReply))
    ensures out.1.Added? <==> Accepted(v, line) && ParseCredentials(line).value.email !in r.emails
    ensures out.1 == EmailAlreadyTaken <==> Accepted(v, line) && ParseCredentials(line).value.email in r.emails
    ensures out.1 == IncorrectCredentials <==> ParseCredentials(line).Err?
    ensures var p := ParseCredentials(line);
      out.1 == IncorrectFirstName <==> p.Ok? && !v.firstName(p.value.firstName)
    ensures var p := ParseCredentials(line);
      out.1 == IncorrectLastName <==> p.Ok? && v.firstName(p.value.firstName) && !v.lastName(p.value.lastName)
    ensures var p := ParseCredentials(line);
      out.1 == IncorrectEmail <==>
        p.Ok? && v.firstName(p.value.firstName) && v.lastName(p.value.lastName) && !v.email(p.value.email)
    ensures !out.1.Added? ==> out.0 == r
    ensures out.1.Added? ==>
      out.1.id == r.nextId && out.0.order == r.order + [r.nextId]
      && out.0.emails == r.emails + {ParseCredentials(line).value.email}
    ensures out.1.Added? ==>
      var p := ParseCredentials(line).value;
      out.0.byId == r.byId[r.nextId := NewStudent(r.nextId, p.firstName, p.lastName, p.email)]
    ensures Valid(r) ==> Valid(out.0)
  {
    match ParseCredentials(line)
    case Err(_) => (r, IncorrectCredentials)
    case Ok(c) =>
      if !v.firstName(c.firstName) then (r, IncorrectFirstName)
      else if !v.lastName(c.lastName) then (r, IncorrectLastName)
      else if !v.email(c.email) then (r, IncorrectEmail)
      else
        var (r', res) := AddStudent(r, c.firstName, c.lastName, c.email);
        match res
        case Ok(id) => (r', Added(id))
        case Err(_) => (r', EmailAlreadyTaken)
  }

  /**
   * The "add students" command over the lines entered before "back":
   * returns the final roster and the number of students added, which the
   * shell reports in its closing message.
   */
  function AddStudents(r: Roster, v: Validators, lines: seq<string>): (out: (Roster, nat))
    ensures out.1 <= |lines|
    ensures |out.0.order| == |r.order| + out.1
    ensures r.order <= out.0.order
    ensures out.0.emails == r.emails + AcceptedEmails(v, lines)
    ensures out.1 == |out.0.emails| - |r.emails|
    ensures Valid(r) ==> Valid(out.0)
    ensures Valid(r) ==> KeepsRecords(r, out.0) && NewRecordsFrom(r, out.0, v, lines)
    decreases |lines|
  {
    if lines == [] then (r, 0)
    else
      var step := AddLine(r, v, lines[0]);
      var rest := AddStudents(step.0, v, lines[1..]);
      AddLineEmails(r, v, lines, step.0.emails, step.1.Added?);
      AddStudentsStep(r, v, lines, step, rest);
      NextIdFree(r);
      AddStudentsRecords(r, v, lines, step.0, rest.0, step.1.Added?, Valid(r), Valid(step.0));
      (rest.0, rest.1 + (if step.1.Added? then 1 else 0))
  }

  /** One more line in front: its reply and the rest of the command combine into the whole command's result. */
  lemma AddStudentsStep(r: Roster, v: Validators, lines: seq<string>, step: (Roster, AddReply), rest: (Roster, nat))
    requires |lines| > 0
    requires step.1.Added? ==> step.0.order == r.order + [r.nextId]
    requires !step.1.Added? ==> step.0 == r
    requires step.0.emails + AcceptedEmails(v, lines[1..]) == r.emails + AcceptedEmails(v, lines)
    requires |step.0.emails| == |r.emails| + (if step.1.Added? then 1 else 0)
    requires rest.1 <= |lines| - 1
    requires |rest.0.order| == |step.0.order| + rest.1
    requires step.0.order <= rest.0.order
    requires rest.0.emails == step.0.emails + AcceptedEmails(v, lines[1..])
    requires rest.1 == |rest.0.emails| - |step.0.emails|
    ensures var n := rest.1 + (if step.1.Added? then 1 else 0);
      && n <= |lines|
      && |rest.0.order| == |r.order| + n
      && r.order <= rest.0.order
      && rest.0.emails == r.emails + AcceptedEmails(v, lines)
      && n == |rest.0.emails| - |r.emails|
  {
  }

  /** The fresh record the shell stores for a line that splits. */
  function NewStudentFor(id: int, line: string): (s: Student)
    requires ParseCredentials(line).Ok?
    ensures var p := ParseCredentials(line).value;
      s.id == id && s.firstName == p.firstName && s.lastName == p.lastName && s.email == p.email
  {
    var p := ParseCredentials(line).value;
    NewStudent(id, p.firstName, p.lastName, p.email)
  }

  /** Every record of the first roster is still stored, unchanged, in the second. */
  ghost predicate KeepsRecords(r: Roster, r2: Roster)
  {
    forall id :: id in r.byId ==> id in r2.byId && r2.byId[id] == r.byId[id]
  }

  /**
   * Every record the second roster has beyond the first is the fresh
   * record of some accepted line, stored under its own id.
   */
  ghost predicate NewRecordsFrom(r: Roster, r2: Roster, v: Validators, lines: seq<string>)
  {
    forall id :: id in r2.byId && id !in r.byId ==>
      exists l :: l in lines && Accepted(v, l) && r2.byId[id] == NewStudentFor(id, l)
  }

  /** In a valid roster the counter's id is not yet taken. */
  lemma NextIdFree(r: Roster)
    ensures Valid(r) ==> r.nextId !in r.byId
  {
  }

  /**
   * One more line in front, for the stored records: the first line stores
   * at most its own fresh record under an unused id, and the rest of the
   * command keeps it and adds only records of accepted lines.
   */
  lemma AddStudentsRecords(r: Roster, v: Validators, lines: seq<string>, r1: Roster, r2: Roster,
                           added: bool, valid: bool, valid1: bool)
    requires |lines| > 0
    requires added ==> Accepted(v, lines[0]) && r1.byId == r.byId[r.nextId := NewStudentFor(r.nextId, lines[0])]
    requires !added ==> r1 == r
    requires valid ==> r.nextId !in r.byId && valid1
    requires valid1 ==> KeepsRecords(r1, r2) && NewRecordsFrom(r1, r2, v, lines[1..])
    ensures valid ==> KeepsRecords(r, r2) && NewRecordsFrom(r, r2, v, lines)
  {
    if valid {
      var s := if added then r1.byId[r.nextId] else NewStudent(r.nextId, "", "", "");
      KeepsStep(r, r1, r2, added, s);
      NewRecordsStep(r, v, lines, r1, r2, added);
    }
  }

  /** Storing one record under a free id and then keeping everything keeps the earlier records. */
  lemma KeepsStep(r: Roster, r1: Roster, r2: Roster, added: bool, s: Student)
    requires r.nextId !in r.byId
    requires added ==> r1.byId == r.byId[r.nextId := s]
    requires !added ==> r1 == r
    requires KeepsRecords(r1, r2)
    ensures KeepsRecords(r, r2)
  {
    forall id | id in r.byId
      ensures id in r2.byId && r2.byId[id] == r.byId[id]
    {
      assert id != r.nextId;
      assert id in r1.byId && r1.byId[id] == r.byId[id];
    }
  }

  /** The first line's record, if any, and the rest's new records all come from accepted lines. */
  lemma NewRecordsStep(r: Roster, v: Validators, lines: seq<string>, r1: Roster, r2: Roster, added: bool)
    requires |lines| > 0
    requires added ==> Accepted(v, lines[0]) && r1.byId == r.byId[r.nextId := NewStudentFor(r.nextId, lines[0])]
    requires !added ==> r1 == r
    requires KeepsRecords(r1, r2) && NewRecordsFrom(r1, r2, v, lines[1..])
    ensures NewRecordsFrom(r, r2, v, lines)
  {
    forall id | id in r2.byId && id !in r.byId
      ensures exists l :: l in lines && Accepted(v, l) && r2.byId[id] == NewStudentFor(id, l)
    {
      if id in r1.byId {
        assert added && id == r.nextId;
        assert lines[0] in lines;
      } else {
        var l :| l in lines[1..] && Accepted(v, l) && r2.byId[id] == NewStudentFor(id, l);
        assert l in lines;
      }
    }
  }

  /** The emails of the lines that split and pass the three checks. */
  function AcceptedEmails(v: Validators, lines: seq<string>): set<string>
  {
    set l | l in lines && Accepted(v, l) :: ParseCredentials(l).value.email
  }

  /**
   * The first line's effect on the email set: a line that is accepted
   * adds its email, which is new exactly when the line added a student.
   */
  lemma AddLineEmails(r: Roster, v: Validators, lines: seq<string>, emails: set<string>, added: bool)
    requires |lines| > 0
    requires added <==> Accepted(v, lines[0]) && ParseCredentials(lines[0]).value.email !in r.emails
    requires added ==> emails == r.emails + {ParseCredentials(lines[0]).value.email}
    requires !added ==> emails == r.emails
    ensures emails + AcceptedEmails(v, lines[1..]) == r.emails + AcceptedEmails(v, lines)
    ensures |emails| == |r.emails| + (if added then 1 else 0)
  {
    AcceptedEmailsCons(v, lines);
    var acc := Accepted(v, lines[0]);
    var e := if acc then ParseCredentials(lines[0]).value.email else "";
    EmailSetStep(r.emails, emails, AcceptedEmails(v, lines[1..]), e, acc, added);
  }

  lemma EmailSetStep(before: set<string>, after: set<string>, rest: set<string>, e: string, acc: bool, added: bool)
    requires added <==> acc && e !in before
    requires added ==> after == before + {e}
    requires !added ==> after == before
    ensures after + rest == before + ((if acc then {e} else {}) + rest)
    ensures |after| == |before| + (if added then 1 else 0)
  {
  }

  lemma AcceptedEmailsCons(v: Validators, lines: seq<string>)
    requires |lines| > 0
    ensures AcceptedEmails(v, lines) ==
      (if Accepted(v, lines[0]) then {ParseCredentials(lines[0]).value.email} else {}) + AcceptedEmails(v, lines[1..])
  {
    ImageCons(lines, l => Accepted(v, l), l requires Accepted(v, l) => ParseCredentials(l).value.email);
  }

  /** The image of the kept elements of a sequence splits at its first element. */
  lemma ImageCons<T, U>(xs: seq<T>, keep: T -> bool, f: T --> U)
    requires |xs| > 0
    requires forall x :: keep(x) ==> f.requires(x)
    ensures (set x | x in xs && keep(x) :: f(x)) ==
      (if keep(xs[0]) then {f(xs[0])} else {}) + (set x | x in xs[1..] && keep(x) :: f(x))
  {
    forall x | x in xs
      ensures x == xs[0] || x in xs[1..]
    {
      var i :| 0 <= i < |xs| && xs[i] == x;
      if i > 0 { assert xs[1..][i - 1] == x; }
    }
  }


  datatype ListReply = NoStudentsFound | StudentIds(ids: seq<int>)

  /**
   * The "list" command: the empty roster is reported as such; otherwise
   * the ids in insertion order, which are ascending because the counter
   * only moves forward.
   */
  function ListStudents(r: Roster): (reply: ListReply)
    ensures reply == NoStudentsFound <==> |r.order| == 0
    ensures reply.StudentIds? ==> reply.ids == r.order
    ensures Valid(r) && reply.StudentIds? ==>
      && (forall i, j :: 0 <= i < j < |reply.ids| ==> reply.ids[i] < reply.ids[j])
      && (forall id :: id in reply.ids <==> id in r.byId)
  {
    OrderCoversKeys(r);
    if |r.order| == 0 then NoStudentsFound else StudentIds(r.order)
  }

  /** In a valid roster the insertion order lists exactly the stored ids. */
  lemma OrderCoversKeys(r: Roster)
    ensures Valid(r) ==> forall id :: id in r.order <==> id in r.byId
  {
    if Valid(r) {
      forall id | id in r.byId
        ensures id in r.order
      {
        assert r.order[id - FirstId] == id;
      }
    }
  }

  /** A successful add appends exactly the new id to the listing. */
  lemma ListAfterAdd(r: Roster, first: string, last: string, email: string)
    requires Valid(r) && email !in r.emails
    ensures ListStudents(AddStudent(r, first, last, email).0) == StudentIds(r.order + [r.nextId])
  {
  }

  /** Java's `Integer.parseInt`, which this model does not open up: `None` for a malformed number. */
  type IntParser = string -> Option<int>

  datatype PointsReply = PointsUpdated | IncorrectPointsFormat | NoStudentFound(idText: string)

  /**
   * The four point values of a points line, when each one is a well-formed
   * non-negative number.
   */
  function ParsePointValues(parseInt: IntParser, parts: seq<string>): (e: Option<Entry>)
    requires |parts| == 5
    ensures e.Some? <==> forall i :: 1 <= i < 5 ==> parseInt(parts[i]).Some? && parseInt(parts[i]).value >= 0
    ensures e.Some? ==> forall c :: e.value.Get(c) == parseInt(parts[CourseColumn(c)]).value
  {
    var java := parseInt(parts[1]);
    var dsa := parseInt(parts[2]);
    var db := parseInt(parts[3]);
    var spring := parseInt(parts[4]);
    if java.None? || dsa.None? || db.None? || spring.None? then None
    else if java.value < 0 || dsa.value < 0 || db.value < 0 || spring.value < 0 then None
    else Some(Entry(java.value, dsa.value, db.value, spring.value))
  }

  /** Applies a points line to one stored student; nothing else in the roster changes. */
  function UpdateStudent(r: Roster, id: int, e: Entry): (r': Roster)
    requires id in r.byId
    ensures r'.order == r.order && r'.emails == r.emails && r'.nextId == r.nextId
    ensures r'.byId.Keys == r.byId.Keys
    ensures forall other :: other in r.byId && other != id ==> r'.byId[other] == r.byId[other]
    ensures r'.byId[id] == UpdatePoints(r.byId[id], e)
    ensures Valid(r) ==> Valid(r')
  {
    var r' := r.(byId := r.byId[id := UpdatePoints(r.byId[id], e)]);
    UpdateKeepsValid(r, r', id, UpdatePoints(r.byId[id], e));
    r'
  }

  /** Replacing one record by a valid record with the same id and email keeps the roster invariant. */
  lemma UpdateKeepsValid(r: Roster, r': Roster, id: int, s: Student)
    requires id in r.byId
    requires r' == r.(byId := r.byId[id := s])
    requires s.id == r.byId[id].id && s.email == r.byId[id].email
    requires Students.Valid(r.byId[id]) ==> Students.Valid(s)
    ensures Valid(r) ==> Valid(r')
  {
    if Valid(r) {
      forall e | e in r'.emails
        ensures exists k :: k in r'.byId && r'.byId[k].email == e
      {
        var k :| k in r.byId && r.byId[k].email == e;
        assert r'.byId[k].email == e;
      }
      assert |r'.byId| == |r.byId|;
    }
  }

  /**
   * The "add points" command for one line: exactly five pieces, four
   * well-formed non-negative point values, then an id that parses and is
   * stored; only then are the points applied to that student.
   */
  function RecordPoints(r: Roster, parseInt: IntParser, line: string): (out: (Roster, PointsReply))
    ensures var parts := JavaSplit(Trim(line));
      out.1 == IncorrectPointsFormat <==> |parts| != 5 || ParsePointValues(parseInt, parts).None?
    ensures var parts := JavaSplit(Trim(line));
      out.1 == PointsUpdated <==>
        && |parts| == 5 && ParsePointValues(parseInt, parts).Some?
        && parseInt(parts[0]).Some? && parseInt(parts[0]).value in r.byId
    ensures out.1 != PointsUpdated ==> out.0 == r
    ensures out.1 == PointsUpdated ==>
      var parts := JavaSplit(Trim(line));
      out.0 == UpdateStudent(r, parseInt(parts[0]).value, ParsePointValues(parseInt, parts).value)
    ensures Valid(r) ==> Valid(out.0)
  {
    var parts := JavaSplit(Trim(line));
    if |parts| != 5 then (r, IncorrectPointsFormat)
    else
      match ParsePointValues(parseInt, parts)
      case None => (r, IncorrectPointsFormat)
      case Some(e) =>
        match parseInt(parts[0])
        case None => (r, NoStudentFound(parts[0]))
        case Some(id) =>
          if id !in r.byId then (r, NoStudentFound(parts[0]))
          else (UpdateStudent(r, id, e), PointsUpdated)
  }

  /** The column of a points line that carries a course's value. */
  function CourseColumn(c: Course): (k: nat)
    ensures 1 <= k < 5
  {
    match c
    case Java => 1
    case DSA => 2
    case Databases => 3
    case Spring => 4
  }

  datatype Progress = Progress(id: int, points: Tally)

  datatype FindReply = Found(progress: Progress) | NotFound(idText: string)

  /** The "find" command for one line: the student's points per course, or not found. */
  function FindStudent(r: Roster, parseInt: IntParser, line: string): (reply: FindReply)
    ensures reply.Found? <==> parseInt(Trim(line)).Some? && parseInt(Trim(line)).value in r.byId
    ensures reply.Found? && Valid(r) ==>
      var s := r.byId[parseInt(Trim(line)).value];
      reply.progress.id == s.id && forall c :: reply.progress.points.Get(c) == s.Points(c)
  {
    var input := Trim(line);
    match parseInt(input)
    case None => NotFound(input)
    case Some(id) => if id in r.byId then Found(Progress(r.byId[id].id, r.byId[id].points)) else NotFound(input)
  }
}

=== FILE: stats.dfy ===
/**
 * The statistics fold: one `CourseInfo` per course, built by adding every
 * student's enrolment mark, submissions and points, and the average score
 * derived from it.
 */
module Statistics {
  import opened Courses
  import opened Students

  datatype CourseInfo = CourseInfo(course: Course, enrolledCount: nat, submissions: nat, totalScore: nat)

  /** A fresh record: it keeps its course and starts every counter at zero. */
  function NewCourseInfo(c: Course): (info: CourseInfo)
    ensures info.course == c
    ensures info.enrolledCount == 0 && info.submissions == 0 && info.totalScore == 0
  {
    CourseInfo(c, 0, 0, 0)
  }

  /**
   * Points per submission as an exact rational; zero when nothing was
   * submitted.
   */
  function AverageScore(info: CourseInfo): (avg: real)
    ensures info.submissions == 0 ==> avg == 0.0
    ensures info.submissions > 0 ==> avg * info.submissions as real == info.totalScore as real
    ensures avg >= 0.0
  {
    if info.submissions == 0 then 0.0 else info.totalScore as real / info.submissions as real
  }

  /**
   * Comparing two averages of courses that have submissions is comparing the
   * cross products of their totals and submission counts.
   */
  lemma AverageOrder(a: CourseInfo, b: CourseInfo)
    requires a.submissions > 0 && b.submissions > 0
    ensures AverageScore(a) <= AverageScore(b) <==> a.totalScore * b.submissions <= b.totalScore * a.submissions
    ensures AverageScore(a) == AverageScore(b) <==> a.totalScore * b.submissions == b.totalScore * a.submissions
  {
    var sa, sb := a.submissions as real, b.submissions as real;
    var ta, tb := a.totalScore as real, b.totalScore as real;
    ScaledAverage(AverageScore(a), sa, ta, sb);
    ScaledAverage(AverageScore(b), sb, tb, sa);
    ScaleOrder(AverageScore(a), AverageScore(b), sa * sb);
    assert sb * sa == sa * sb;
    assert (a.totalScore * b.submissions) as real == ta * sb;
    assert (b.totalScore * a.submissions) as real == tb * sa;
  }

  lemma ScaledAverage(x: real, s: real, t: real, k: real)
    requires x * s == t
    ensures x * (s * k) == t * k
  {
    assert x * (s * k) == (x * s) * k;
  }

  lemma ScaleOrder(x: real, y: real, k: real)
    requires k > 0.0
    ensures x <= y <==> x * k <= y * k
    ensures x == y <==> x * k == y * k
  {
    assert (y - x) * k == y * k - x * k;
    if x < y { assert (y - x) * k > 0.0; }
    if y < x { assert (x - y) * k > 0.0; }
  }

  /** The three quantities a student adds to a course's record. */
  datatype Measure = Enrolment | Submitted | Scored

  function Contribution(s: Student, c: Course, m: Measure): nat
  {
    match m
    case Enrolment => if s.Points(c) > 0 then 1 else 0
    case Submitted => s.Submissions(c)
    case Scored => s.Points(c)
  }

  /** A measure summed over a sequence of students, one after the other. */
  function Sum(ss: seq<Student>, c: Course, m: Measure): nat
  {
    if ss == [] then 0 else Sum(ss[..|ss| - 1], c, m) + Contribution(ss[|ss| - 1], c, m)
  }

  /** The record the statistics hold for a course over the given students. */
  function Totals(ss: seq<Student>, c: Course): CourseInfo
  {
    CourseInfo(c, Sum(ss, c, Enrolment), Sum(ss, c, Submitted), Sum(ss, c, Scored))
  }

  /** The reference statistics: one record for each of the four courses. */
  function StatsOf(ss: seq<Student>): map<Course, CourseInfo>
  {
    map c | c in CourseSet :: Totals(ss, c)
  }

  /** Fresh statistics: one zeroed record per course. */
  method InitialStats() returns (stats: map<Course, CourseInfo>)
    ensures stats.Keys == CourseSet
    ensures forall c :: c in stats ==> stats[c] == NewCourseInfo(c)
  {
    stats := map[];
    var k := 0;
    while k < |AllCourses|
      invariant 0 <= k <= |AllCourses|
      invariant stats.Keys == set j | 0 <= j < k :: AllCourses[j]
      invariant forall c :: c in stats ==> stats[c] == NewCourseInfo(c)
    {
      stats := stats[AllCourses[k] := NewCourseInfo(AllCourses[k])];
      k := k + 1;
    }
    assert AllCourses[0] == Java && AllCourses[1] == DSA && AllCourses[2] == Databases && AllCourses[3] == Spring;
  }

  /** One student's marks, submissions and points added to a course's record. */
  function Absorb(info: CourseInfo, s: Student): (info': CourseInfo)
    ensures info'.course == info.course
  {
    var points := s.Points(info.course);
    info.(enrolledCount := if points > 0 then info.enrolledCount + 1 else info.enrolledCount,
          totalScore := info.totalScore + points,
          submissions := info.submissions + s.Submissions(info.course))
  }

  /** Absorbing the next student into the record of the students before is the record of all of them. */
  lemma TotalsSnoc(done: seq<Student>, s: Student, c: Course)
    ensures Totals(done + [s], c) == Absorb(Totals(done, c), s)
  {
    var next := done + [s];
    assert next[..|next| - 1] == done;
  }

  /** Adds one student's marks, submissions and points to every course's record. */
  method FoldStudent(stats: map<Course, CourseInfo>, ghost done: seq<Student>, s: Student)
    returns (stats': map<Course, CourseInfo>)
    requires stats.Keys == CourseSet
    requires forall c :: c in stats ==> stats[c] == Totals(done, c)
    ensures stats'.Keys == CourseSet
    ensures forall c :: c in stats' ==> stats'[c] == Totals(done + [s], c)
  {
    stats' := stats;
    var j := 0;
    while j < |AllCourses|
      invariant 0 <= j <= |AllCourses|
      invariant stats'.Keys == CourseSet
      invariant forall c :: c in stats' ==> stats'[c] == if c in AllCourses[..j] then Absorb(stats[c], s) else stats[c]
    {
      var course := AllCourses[j];
      assert AllCourses[..j + 1] == AllCourses[..j] + [course];
      assert course !in AllCourses[..j];
      stats' := stats'[course := Absorb(stats'[course], s)];
      j := j + 1;
    }
    assert AllCourses[..j] == AllCourses;
    forall c | c in stats'
      ensures stats'[c] == Totals(done + [s], c)
    {
      TotalsSnoc(done, s, c);
    }
  }

  /**
   * `calculateStats`: starts one record per course, then for every student
   * and every course counts the student as enrolled when the points are
   * positive and adds the student's points and submissions.
   */
  method CalculateStats(ss: seq<Student>) returns (stats: map<Course, CourseInfo>)
    ensures stats.Keys == CourseSet
    ensures forall c :: c in stats ==> stats[c].course == c
    ensures forall c :: c in stats ==>
      && stats[c].enrolledCount == Sum(ss, c, Enrolment)
      && stats[c].submissions == Sum(ss, c, Submitted)
      && stats[c].totalScore == Sum(ss, c, Scored)
  {
    stats := InitialStats();
    var i := 0;
    while i < |ss|
      invariant 0 <= i <= |ss|
      invariant stats.Keys == CourseSet
      invariant forall c :: c in stats ==> stats[c] == Totals(ss[..i], c)
    {
      assert ss[..i + 1] == ss[..i] + [ss[i]];
      stats := FoldStudent(stats, ss[..i], ss[i]);
      i := i + 1;
    }
    assert ss[..i] == ss;
  }

  lemma {:induction false} SumAppend(a: seq<Student>, b: seq<Student>, c: Course, m: Measure)
    ensures Sum(a + b, c, m) == Sum(a, c, m) + Sum(b, c, m)
    decreases |b|
  {
    if b == [] {
      assert a + b == a;
    } else {
      var b' := b[..|b| - 1];
      assert (a + b)[..|a + b| - 1] == a + b';
      SumAppend(a, b', c, m);
    }
  }

  /** Taking one student out of the sequence takes its contribution out of the sum. */
  lemma SumRemove(b: seq<Student>, k: nat, c: Course, m: Measure)
    requires k < |b|
    ensures multiset(b[..k] + b[k + 1..]) == multiset(b) - multiset{b[k]}
    ensures Sum(b, c, m) == Sum(b[..k] + b[k + 1..], c, m) + Contribution(b[k], c, m)
  {
    var x := b[k];
    assert b == b[..k] + [x] + b[k + 1..];
    assert multiset(b) == multiset(b[..k]) + multiset{x} + multiset(b[k + 1..]);
    SumAppend(b[..k] + [x], b[k + 1..], c, m);
    SumAppend(b[..k], [x], c, m);
    SumAppend(b[..k], b[k + 1..], c, m);
    assert [x][..0] == [];
  }

  /**
   * The fold is commutative: students added in any order give the same
   * sum.
   */
  lemma {:induction false} SumPermutation(a: seq<Student>, b: seq<Student>, c: Course, m: Measure)
    requires multiset(a) == multiset(b)
    ensures Sum(a, c, m) == Sum(b, c, m)
    decreases |a|
  {
    if a == [] {
      assert |b| == |multiset(b)| == 0;
    } else {
      var x := a[|a| - 1];
      var a' := a[..|a| - 1];
      SumRemove(a, |a| - 1, c, m);
      assert a[..|a| - 1] + a[|a|..] == a';
      assert x in multiset(b);
      var k :| 0 <= k < |b| && b[k] == x;
      SumRemove(b, k, c, m);
      SumPermutation(a', b[..k] + b[k + 1..], c, m);
    }
  }

  /**
   * Statistics do not depend on the order in which students were added:
   * any permutation of the roster gives the same four records.
   */
  lemma StatsOrderIndependent(a: seq<Student>, b: seq<Student>)
    requires multiset(a) == multiset(b)
    ensures StatsOf(a) == StatsOf(b)
  {
    forall c | c in CourseSet
      ensures Totals(a, c) == Totals(b, c)
    {
      SumPermutation(a, b, c, Enrolment);
      SumPermutation(a, b, c, Submitted);
      SumPermutation(a, b, c, Scored);
    }
  }

  /** The students with positive points in a course, in their original order. */
  function EnrolledStudents(ss: seq<Student>, c: Course): (r: seq<Student>)
    ensures forall s :: s in r <==> s in ss && s.Points(c) > 0
    ensures |r| <= |ss|
    ensures forall s :: multiset(r)[s] == if s.Points(c) > 0 then multiset(ss)[s] else 0
  {
    if ss == [] then []
    else
      var rest := EnrolledStudents(ss[..|ss| - 1], c);
      var last := ss[|ss| - 1];
      assert ss == ss[..|ss| - 1] + [last];
      if last.Points(c) > 0 then rest + [last] else rest
  }

  /** The enrolled count is the number of students with positive points in the course. */
  lemma {:induction false} EnrolledCountIsFilterSize(ss: seq<Student>, c: Course)
    ensures Sum(ss, c, Enrolment) == |EnrolledStudents(ss, c)|
    decreases |ss|
  {
    if ss != [] {
      EnrolledCountIsFilterSize(ss[..|ss| - 1], c);
    }
  }

  /**
   * Over valid student records, a course's statistics satisfy
   * enrolled <= submissions <= points, and all three are zero together.
   */
  lemma {:induction false} StatsBounds(ss: seq<Student>, c: Course)
    requires forall i :: 0 <= i < |ss| ==> Students.Valid(ss[i])
    ensures Sum(ss, c, Enrolment) <= Sum(ss, c, Submitted) <= Sum(ss, c, Scored)
    ensures Sum(ss, c, Enrolment) == 0 <==> Sum(ss, c, Scored) == 0
    decreases |ss|
  {
    if ss != [] {
      StatsBounds(ss[..|ss| - 1], c);
      assert Students.Valid(ss[|ss| - 1]);
    }
  }
}

=== FILE: students.dfy ===
/**
 * The student record: identity, per-course points and submission counters,
 * and the set of courses whose completion notice has been sent.
 */
module Students {
  import opened Courses
  import Credentials

  /** One non-negative counter per course. */
  datatype Tally = Tally(java: nat, dsa: nat, databases: nat, spring: nat)
  {
    function Get(c: Course): nat
    {
      match c
      case Java => java
      case DSA => dsa
      case Databases => databases
      case Spring => spring
    }

    function Set(c: Course, v: nat): (t: Tally)
      ensures t.Get(c) == v
      ensures forall d :: d != c ==> t.Get(d) == Get(d)
    {
      match c
      case Java => this.(java := v)
      case DSA => this.(dsa := v)
      case Databases => this.(databases := v)
      case Spring => this.(spring := v)
    }
  }

  const ZeroTally := Tally(0, 0, 0, 0)

  /**
   * Reading a course back after writing it gives the value written, and
   * writing back the value read changes nothing.
   */
  lemma TallyGetSet(t: Tally, c: Course, v: nat)
    ensures t.Set(c, v).Get(c) == v
    ensures t.Set(c, t.Get(c)) == t
    ensures t.Set(c, v).Set(c, t.Get(c)) == t
  {
  }

  datatype Student = Student(
    id: int,
    firstName: string,
    lastName: string,
    email: string,
    points: Tally,
    submissions: Tally,
    notified: set<Course>)
  {
    /**
     * The course's points: the entry of the points tally that storing it
     * back leaves the tally unchanged.
     */
    function Points(c: Course): (n: nat)
      ensures points.Set(c, n) == points
    {
      points.Get(c)
    }

    /** The course's submission count, likewise the entry of the submissions tally. */
    function Submissions(c: Course): (n: nat)
      ensures submissions.Set(c, n) == submissions
    {
      submissions.Get(c)
    }
  }

  /** The four values of one points line, in course order. */
  datatype Entry = Entry(java: int, dsa: int, databases: int, spring: int)
  {
    function Get(c: Course): int
    {
      match c
      case Java => java
      case DSA => dsa
      case Databases => databases
      case Spring => spring
    }
  }

  /**
   * The record invariant: a course has submissions exactly when it has
   * points, and every submission brought at least one point.
   */
  ghost predicate Valid(s: Student)
  {
    forall c :: (s.Submissions(c) > 0 <==> s.Points(c) > 0) && s.Points(c) >= s.Submissions(c)
  }

  /** A fresh record: nothing earned, nothing submitted, nothing notified. */
  function NewStudent(id: int, firstName: string, lastName: string, email: string): (s: Student)
    ensures s.id == id && s.firstName == firstName && s.lastName == lastName && s.email == email
    ensures forall c :: s.Points(c) == 0 && s.Submissions(c) == 0 && c !in s.notified
    ensures Valid(s)
  {
    Student(id, firstName, lastName, email, ZeroTally, ZeroTally, {})
  }

  /**
   * One course's share of a points line: a positive value adds to the
   * course's points and counts as exactly one submission; anything else
   * leaves the record as it is.
   */
  function AddPoints(s: Student, c: Course, pts: int): (r: Student)
    ensures pts <= 0 ==> r == s
    ensures pts > 0 ==> r.Points(c) == s.Points(c) + pts && r.Submissions(c) == s.Submissions(c) + 1
    ensures forall d :: d != c ==> r.Points(d) == s.Points(d) && r.Submissions(d) == s.Submissions(d)
    ensures r.id == s.id && r.firstName == s.firstName && r.lastName == s.lastName
    ensures r.email == s.email && r.notified == s.notified
    ensures Valid(s) ==> Valid(r)
  {
    if pts > 0 then
      s.(points := s.points.Set(c, s.Points(c) + pts),
         submissions := s.submissions.Set(c, s.Submissions(c) + 1))
    else
      s
  }

  /** Applies a points line, each value to its own course only. */
  function UpdatePoints(s: Student, e: Entry): (r: Student)
    ensures forall c :: r.Points(c) == s.Points(c) + Positive(e.Get(c))
    ensures forall c :: r.Submissions(c) == s.Submissions(c) + (if e.Get(c) > 0 then 1 else 0)
    ensures r.id == s.id && r.firstName == s.firstName && r.lastName == s.lastName
    ensures r.email == s.email && r.notified == s.notified
    ensures Valid(s) ==> Valid(r)
  {
    var s1 := AddPoints(s, Java, e.java);
    var s2 := AddPoints(s1, DSA, e.dsa);
    var s3 := AddPoints(s2, Databases, e.databases);
    var s4 := AddPoints(s3, Spring, e.spring);
    forall c
      ensures s4.Points(c) == s.Points(c) + Positive(e.Get(c))
      ensures s4.Submissions(c) == s.Submissions(c) + (if e.Get(c) > 0 then 1 else 0)
    {
      AddPointsChain(s, e, c);
    }
    s4
  }

  /** Of the four steps of a points line, only the course's own step touches its counters. */
  lemma AddPointsChain(s: Student, e: Entry, c: Course)
    ensures var s4 := AddPoints(AddPoints(AddPoints(AddPoints(s, Java, e.java), DSA, e.dsa), Databases, e.databases), Spring, e.spring);
      && s4.Points(c) == s.Points(c) + Positive(e.Get(c))
      && s4.Submissions(c) == s.Submissions(c) + (if e.Get(c) > 0 then 1 else 0)
  {
  }

  function Positive(v: int): nat
  {
    if v > 0 then v else 0
  }

  /** Applies a history of points lines in order. */
  function ApplyAll(s: Student, history: seq<Entry>): Student
    decreases |history|
  {
    if history == [] then s else ApplyAll(UpdatePoints(s, history[0]), history[1..])
  }

  /** Sum of the positive values a history submitted for one course. */
  function SumSubmitted(history: seq<Entry>, c: Course): nat
  {
    if history == [] then 0 else Positive(history[0].Get(c)) + SumSubmitted(history[1..], c)
  }

  /** Number of lines of a history with a positive value for one course. */
  function CountSubmitted(history: seq<Entry>, c: Course): nat
  {
    if history == [] then 0
    else (if history[0].Get(c) > 0 then 1 else 0) + CountSubmitted(history[1..], c)
  }

  /**
   * After any history of points lines, a fresh record holds, per course,
   * the sum of the positive values submitted and the number of positive
   * submissions, and still satisfies the record invariant.
   */
  lemma {:induction false} HistoryTotals(s: Student, history: seq<Entry>, c: Course)
    ensures ApplyAll(s, history).Points(c) == s.Points(c) + SumSubmitted(history, c)
    ensures ApplyAll(s, history).Submissions(c) == s.Submissions(c) + CountSubmitted(history, c)
    ensures Valid(s) ==> Valid(ApplyAll(s, history))
    ensures ApplyAll(s, history).notified == s.notified && ApplyAll(s, history).id == s.id
    decreases |history|
  {
    if history != [] {
      HistoryTotals(UpdatePoints(s, history[0]), history[1..], c);
    }
  }

  /** Points never decrease under a points line. */
  lemma PointsMonotone(s: Student, e: Entry, c: Course)
    ensures UpdatePoints(s, e).Points(c) >= s.Points(c)
  {
  }

  /** Completion: the course's points reach the threshold. */
  predicate HasCompleted(s: Student, c: Course, threshold: int): (b: bool)
    ensures Valid(s) && threshold <= 0 ==> b
    ensures Valid(s) && threshold > 0 && b ==> s.Submissions(c) > 0
  {
    s.Points(c) >= threshold
  }

  /** Once completed, a course stays completed whatever points line follows. */
  lemma CompletionStable(s: Student, e: Entry, c: Course, threshold: int)
    requires HasCompleted(s, c, threshold)
    ensures HasCompleted(UpdatePoints(s, e), c, threshold)
  {
  }

  /** Whether the course's completion notice has been sent. */
  predicate IsNotifiedFor(s: Student, c: Course): (b: bool)
    ensures b <==> s.notified + {c} == s.notified
  {
    c in s.notified
  }

  function MarkNotified(s: Student, c: Course): (r: Student)
    ensures IsNotifiedFor(r, c)
    ensures forall d :: IsNotifiedFor(s, d) ==> IsNotifiedFor(r, d)
    ensures forall d :: IsNotifiedFor(r, d) ==> d == c || IsNotifiedFor(s, d)
    ensures r.points == s.points && r.submissions == s.submissions
    ensures r.id == s.id && r.email == s.email && r.firstName == s.firstName && r.lastName == s.lastName
    ensures Valid(s) ==> Valid(r)
  {
    var r := s.(notified := s.notified + {c});
    assert forall d :: r.Points(d) == s.Points(d) && r.Submissions(d) == s.Submissions(d);
    r
  }
  /** Marking changes a record exactly when its course was not yet notified. */
  lemma MarkNotifiedIdempotent(s: Student, c: Course)
    ensures IsNotifiedFor(s, c) <==> MarkNotified(s, c) == s
  {
    if IsNotifiedFor(s, c) {
      assert s.notified + {c} == s.notified;
    }
  }


  function FullName(s: Student): (r: string)
    ensures |r| == |s.firstName| + 1 + |s.lastName|
    ensures r[..|s.firstName|] == s.firstName && r[|s.firstName|] == ' '
    ensures r[|s.firstName| + 1..] == s.lastName
  {
    s.firstName + " " + s.lastName
  }

  /**
   * The greeting's full name gives the first name back, cut at its first
   * space, when the first name has none (as every accepted first name).
   */
  lemma FullNameFirstSpace(s: Student)
    ensures ' ' !in s.firstName ==>
      && Credentials.IndexOf(FullName(s), ' ') == |s.firstName|
      && FullName(s)[..Credentials.IndexOf(FullName(s), ' ')] == s.firstName
      && FullName(s)[Credentials.IndexOf(FullName(s), ' ') + 1..] == s.lastName
  {
    if ' ' !in s.firstName {
      Credentials.FirstSpaceAt(FullName(s), s.firstName, s.lastName);
    }
  }
}
